=== FILE: README.md ===
# CollegeSim friendship core in Dafny

This project models the heart of CollegeSim, an agent-based simulation of
students on a campus. Students meet each other and become friends. Friendships
decay when they are not refreshed. Every year a class of freshmen enrols, and
seniors and alienated students leave. The Java sources modelled are `Person.java` (one
student) and `Sim.java` (the controller that runs the calendar).

The model is functional. The campus is an immutable record (`CampusState.Campus`)
holding:

- the roster of students, as a sequence of `People.Person` records with
  unique ids;
- the friendship network (`Graph.Network`): a node set plus a set of
  canonical undirected edges;
- the groups, each an id plus a member list;
- the two id counters, which never go backwards.

The schedule clock is a `real` parameter. Every random outcome is a
parameter: index picks, friendship draws, constructor draws, dropout and
dissolution draws. Every operation returns the new campus together with a
record of what happened.

The modules follow the program's structure:

| module | file | what it covers |
|---|---|---|
| `Numerics` | numerics.dfy | Java's `Math.ceil`, `(int)` cast, `/` and `%` on ints; sums of real vectors |
| `Calendar` | calendar.dfy | months, academic months, year number, end of the run |
| `Attributes` | attributes.dfy | `normalize`, `setDepAttrValue`, the two `attrCounter`s |
| `People` | person.dfy | the student record, the constructor, `similarityTo`, `becomeFriends`, `getAlienation` |
| `Graph` | graph.dfy | the undirected network: add/remove nodes and edges, neighbours |
| `CampusState` | campus.dfy | the campus record, its invariant `Valid`, tickle-map updates, `getPeopleInGroups` |
| `Friendship` | friendship.dfy | `tickle`, `makeFriends`, `meet`, `encounter` |
| `Decay` | decay.dfy | `decay` |
| `StudentStep` | step.dfy | `Person.step` |
| `Enrolment` | enrolment.dfy | `Sim.start` and the August pass of `Sim.step` |
| `Departure` | departure.dfy | the May pass of `Sim.step` |
| `Controller` | controller.dfy | `Sim.step` as a whole and the yearly rhythm it keeps |

The campus invariant `CampusState.Valid` says five things:

- student ids and group ids are unique and below their counters;
- the network's nodes are exactly the enrolled students;
- every edge has a tickle entry on both sides;
- group membership is recorded consistently on both sides;
- every student's attribute vectors have the configured lengths.

Every operation of the model preserves `Valid`.

## Model

| member | source | states |
|---|---|---|
| Numerics.JavaDivision | src/edu/umw/cpsc/collegesim/Sim.java:95-101 | Java's truncating quotient and remainder recombine to the dividend; the remainder is never positive for a negative dividend and agrees with the mathematical one otherwise |
| Calendar.AcademicMonthRule | src/edu/umw/cpsc/collegesim/Sim.java:95-101 | the next month is academic iff the rounded-up clock is negative or lies in months 0-8 of its year |
| Calendar.YearNumRule | src/edu/umw/cpsc/collegesim/Sim.java:254-256 | on a non-negative clock the year number counts the whole 12-month years elapsed, and the clock lies inside that year |
| Calendar.EndOfSimRule | src/edu/umw/cpsc/collegesim/Sim.java:250-252 | the run is over iff the clock exceeds 12 months times the configured number of years |
| Calendar.PhaseAlternation | src/edu/umw/cpsc/collegesim/Sim.java:75-101 | a clock in months 0-2 is academic, 9 months later it is summer, and 12 months later it is academic again |
| Attributes.Normalize | src/edu/umw/cpsc/collegesim/Person.java:832-844 | each normalised entry times the vector's total gives back the raw entry, and a non-empty normalised vector sums to 1 |
| Attributes.SetDepAttrValue | src/edu/umw/cpsc/collegesim/Person.java:892-904 | only entry i of the raw vector changes |
| Attributes.SetDepAttrValueReachesTarget | src/edu/umw/cpsc/collegesim/Person.java:892-904 | after the update, the normalised value of entry i is exactly the requested value and the vector still normalises to 1 |
| Attributes.CountMatches | src/edu/umw/cpsc/collegesim/Person.java:739-750 | the number of matching boolean attributes is at most the pool size, and equals it iff the two vectors agree on the whole pool |
| Attributes.CountMatchesSymmetric | src/edu/umw/cpsc/collegesim/Person.java:739-750 | the boolean match count does not depend on the order of the two students |
| Attributes.SumClosenessFacts | src/edu/umw/cpsc/collegesim/Person.java:753-777 | the real-valued closeness is symmetric, at most the pool size, and equals the pool size iff the two sums agree |
| Attributes.SumClosenessNonNegative | src/edu/umw/cpsc/collegesim/Person.java:753-777 | with values in [0, 1] the closeness is not negative |
| Attributes.NormalizedClosenessIsPool | src/edu/umw/cpsc/collegesim/Person.java:793-797 | two normalised vectors always score the full pool, because both sum to 1 |
| People.NewPerson | src/edu/umw/cpsc/collegesim/Person.java:404-445 | a new student has the given id and year, no groups and no tickle entries; its vectors have the pool lengths and values in (0, 1]; it is white iff the race draw is at most the white probability, and always female |
| People.SimilaritySymmetric | src/edu/umw/cpsc/collegesim/Person.java:782-819 | similarity does not depend on which student asks |
| People.SimilarityInUnitRange | src/edu/umw/cpsc/collegesim/Person.java:782-819 | with non-negative weights and sampled attributes, similarity lies in [0, 1] |
| People.SelfSimilarityIsOne | src/edu/umw/cpsc/collegesim/Person.java:782-819 | a student is perfectly similar to itself |
| People.DependentTermIsPool | src/edu/umw/cpsc/collegesim/Person.java:793-797 | the dependent-attribute term of two students is always the full pool size |
| People.SimilarityIgnoresDependentValues | src/edu/umw/cpsc/collegesim/Person.java:793-797 | changing a student's dependent values never changes a similarity score |
| People.FlatAcceptance | src/edu/umw/cpsc/collegesim/Person.java:821-830 | with coefficient 0 acceptance ignores similarity: intercept 1 always accepts, and intercept 0 accepts only a zero draw |
| People.Alienation | src/edu/umw/cpsc/collegesim/Person.java:847-863 | alienation lies in (0, 1] and is 1 for a student with no friends |
| People.AlienationNonIncreasing | src/edu/umw/cpsc/collegesim/Person.java:847-863 | more friends never make a student more alienated |
| Graph.AddEdge | src/edu/umw/cpsc/collegesim/Person.java:996-1000 | the two students become linked and no other pair changes |
| Graph.RemoveEdge | src/edu/umw/cpsc/collegesim/Person.java:372-373 | the pair is no longer linked, no other pair changes, and removing an absent edge does nothing |
| Graph.RemoveNodes | src/edu/umw/cpsc/collegesim/Sim.java:460-465 | the removed students vanish together with exactly the edges that touch them |
| Graph.Neighbors | src/edu/umw/cpsc/collegesim/Person.java:629-639 | a student's neighbours are exactly the students it is linked to |
| CampusState.Refresh | src/edu/umw/cpsc/collegesim/Person.java:312-314 | only student a's tickle map changes, and its entry for b becomes `now` |
| CampusState.Forget | src/edu/umw/cpsc/collegesim/Person.java:320-322 | only student a's tickle map changes, and it loses its entry for b |
| CampusState.PeopleInGroups | src/edu/umw/cpsc/collegesim/Person.java:911-928 | the pool holds every member of any of the groups, each once, and nobody else |
| CampusState.IdsBelow | src/edu/umw/cpsc/collegesim/Person.java:413-416 | every id in use is below its counter, so a new id is always fresh |
| Friendship.Tickle | src/edu/umw/cpsc/collegesim/Person.java:486-495 | both students stamp each other with `now`; the network and every other tickle entry stay as they were |
| Friendship.TickleKeepsValid | src/edu/umw/cpsc/collegesim/Person.java:486-495 | a tickle keeps the campus invariant |
| Friendship.MakeFriends | src/edu/umw/cpsc/collegesim/Person.java:996-1000 | the two students become linked with no other edge change, and both stamp each other with `now` |
| Friendship.MakeFriendsKeepsValid | src/edu/umw/cpsc/collegesim/Person.java:996-1000 | befriending keeps the campus invariant |
| Friendship.Meet | src/edu/umw/cpsc/collegesim/Person.java:451-480 | the two become friends iff `becomeFriends` accepts the draw at their similarity; otherwise the campus is unchanged |
| Friendship.MeetKeepsValid | src/edu/umw/cpsc/collegesim/Person.java:451-480 | a meeting keeps the campus invariant |
| Friendship.EncounterOne | src/edu/umw/cpsc/collegesim/Person.java:513-517 | an existing friend is tickled without consuming a draw; a stranger is met and consumes exactly one draw |
| Friendship.EncounterCount | src/edu/umw/cpsc/collegesim/Person.java:504-506 | the number of encounters is clamped to the pool size, and a negative request runs none |
| Friendship.Chosen | src/edu/umw/cpsc/collegesim/Person.java:508-512 | the resampling loop never yields the student itself and only yields members of the pool |
| Friendship.Encounter | src/edu/umw/cpsc/collegesim/Person.java:503-519 | the peers encountered are the picks in order with self-picks skipped. There are as many as the clamped count whenever picks and draws suffice. Each peer was tickled iff already a friend, and a stranger became a friend iff its draw was accepted. The only new edges join the student to strangers it befriended, only the affected tickle entries are stamped, and the invariant holds |
| Decay.StaleKeys | src/edu/umw/cpsc/collegesim/Person.java:328-332 | a key is stale iff it has an entry at least the threshold old |
| Decay.DecayKeyDecays | src/edu/umw/cpsc/collegesim/Person.java:337-374 | one pass of the loop body lets go of exactly the one key: the edge goes, the student forgets the key, and a friend forgets the student |
| Decay.DecayAll | src/edu/umw/cpsc/collegesim/Person.java:324-377 | the result is the campus after the student has let go of all its stale keys at once |
| Decay.DecayMeaning | src/edu/umw/cpsc/collegesim/Person.java:324-377 | afterwards the student keeps exactly its fresh entries, with their old times. It loses exactly the friendships whose entries were stale. No edge between two other students changes |
| Decay.DecayIdempotent | src/edu/umw/cpsc/collegesim/Person.java:324-377 | decaying a second time at the same clock changes nothing |
| Decay.DecayedKeepsValid | src/edu/umw/cpsc/collegesim/Person.java:324-377 | letting go of any set of keys keeps the campus invariant |
| Decay.DecayInOrder | src/edu/umw/cpsc/collegesim/Person.java:324-377 | walking the tickle map key by key, in any enumeration order, gives the same campus as letting go of all stale keys at once |
| StudentStep.GroupPool | src/edu/umw/cpsc/collegesim/Person.java:544-547 | the group pool holds each member of any of the student's groups once, and nobody else |
| StudentStep.GroupPoolInRoster | src/edu/umw/cpsc/collegesim/Person.java:544-547 | every member of the group pool is an enrolled student |
| StudentStep.NoStaleFriend | src/edu/umw/cpsc/collegesim/Person.java:564 | after decay, every remaining friend has a tickle entry younger than the threshold |
| StudentStep.NextWake | src/edu/umw/cpsc/collegesim/Person.java:566-576 | in an academic month the student asks to be woken in 1 month; in a summer month it asks for 4 months (the summer plus one), unless it is the last year, and it asks never to be woken again iff it is summer in the last year |
| StudentStep.EncounterPhase | src/edu/umw/cpsc/collegesim/Person.java:544-552 | with a pool of at most one student nothing changes; otherwise the phase does what `encounter` promises (`Encountered`): only tickle maps and edges change, the peers are the picks in order without self-picks, as many as the clamped count when picks and draws suffice, each tickled iff already a friend, each meeting decided by its own draw, new edges only to befriended strangers, exactly the touched entries stamped |
| StudentStep.Encounters | src/edu/umw/cpsc/collegesim/Person.java:544-552 | the group encounter (from the campus to `c1`) and then the campus-wide encounter on the remaining draws (from `c1` to `c2`) each do what `encounter` promises; together they keep the invariant and every other student's friendships, and each new friend was met in one of them |
| StudentStep.Step | src/edu/umw/cpsc/collegesim/Person.java:536-577 | a student no longer in the network does nothing and is not rescheduled. Otherwise the group encounter and the campus-wide encounter each do what `encounter` promises, the result is exactly `decay()` applied at `now` to the campus after the encounters, no edge between two other students changes, no friend of the student is stale afterwards, and the wake request is `NextWake` |
| Enrolment.Newcomers | src/edu/umw/cpsc/collegesim/Sim.java:393-404 | the i-th newcomer takes the i-th id after the counter and the i-th year, with no groups and no friends |
| Enrolment.NewcomerIds | src/edu/umw/cpsc/collegesim/Sim.java:393-404 | the newcomers' ids are exactly the next block of ids |
| Enrolment.NewGroups | src/edu/umw/cpsc/collegesim/Sim.java:405-412 | new groups are empty and take consecutive ids |
| Enrolment.AppendKeepsValid | src/edu/umw/cpsc/collegesim/Sim.java:393-412 | adding students with fresh ids as isolated nodes, and empty groups with fresh ids, keeps the campus invariant |
| Enrolment.Start | src/edu/umw/cpsc/collegesim/Sim.java:144-167 | the initial campus has the configured numbers of students and groups, ids 0, 1, 2, and so on, years from 1 to 4, no friendships, no memberships, and every student in the network |
| Enrolment.StartValid | src/edu/umw/cpsc/collegesim/Sim.java:144-167 | the initial campus satisfies the campus invariant |
| Enrolment.Aged | src/edu/umw/cpsc/collegesim/Person.java:974-986 | ageing raises the year by one and changes nothing else |
| Enrolment.AgedKeepsValid | src/edu/umw/cpsc/collegesim/Sim.java:390-392 | ageing every student keeps the campus invariant |
| Enrolment.YearStartMeaning | src/edu/umw/cpsc/collegesim/Sim.java:382-417 | in August each enrolled student is one year older and otherwise unchanged. The freshmen have year 1 and fresh ids, with no friends, groups or tickle entries. The network gains exactly their nodes and no edge. The new groups are empty with fresh ids, and the invariant holds |
| Departure.DropoutChance | src/edu/umw/cpsc/collegesim/Sim.java:440-443 | the dropout probability lies in (0.05, 0.06] and is 0.06 for a student with no friends |
| Departure.Without | src/edu/umw/cpsc/collegesim/Person.java:299-305 | removal keeps exactly the elements not removed |
| Departure.Remaining | src/edu/umw/cpsc/collegesim/Sim.java:456-467 | the roster keeps exactly the students who do not leave |
| Departure.Standing | src/edu/umw/cpsc/collegesim/Sim.java:456-459 | the group list keeps exactly the groups not dissolved |
| Departure.RemainingUnique | src/edu/umw/cpsc/collegesim/Sim.java:463 | removing students keeps ids unique |
| Departure.LeaversMeaning | src/edu/umw/cpsc/collegesim/Sim.java:433-450 | the student at a roster position leaves iff of year 4 or more or its draw is at most its dropout probability |
| Departure.DissolvedMeaning | src/edu/umw/cpsc/collegesim/Sim.java:451-455 | a group is dissolved iff its draw exceeds 0.75 |
| Departure.YearEnd | src/edu/umw/cpsc/collegesim/Sim.java:419-473 | two students stay linked iff they were linked and neither leaves |
| Departure.YearEndValid | src/edu/umw/cpsc/collegesim/Sim.java:419-473 | the May pass keeps the campus invariant |
| Departure.YearEndStudents | src/edu/umw/cpsc/collegesim/Sim.java:433-450 | a student stays iff below year 4 with a draw above its dropout probability; nobody joins and the id counter is unchanged |
| Departure.YearEndSurvivors | src/edu/umw/cpsc/collegesim/Sim.java:456-467 | every survivor was enrolled, is of year 3 or less, and keeps everything except its dissolved groups |
| Departure.YearEndKeepsTickles | src/edu/umw/cpsc/collegesim/Sim.java:460-465 | the May pass clears no tickle entry: a survivor keeps its entry for a friend who left, though no edge joins them any more, so the invariant cannot ask that every tickle entry has an edge |
| Departure.YearEndGroups | src/edu/umw/cpsc/collegesim/Sim.java:451-467 | a group stands iff its draw is at most 0.75, a standing group loses exactly the students who leave, and the group counter is unchanged |
| Controller.Wake | src/edu/umw/cpsc/collegesim/Sim.java:377-479 | the controller seals the schedule iff the run is over; otherwise it sleeps 9 months in an academic month and 3 months in a summer month |
| Controller.ControllerStep | src/edu/umw/cpsc/collegesim/Sim.java:377-479 | a sealed step leaves the campus untouched, and the wake request is `Wake`; which pass the step runs is stated by `Controller.ControllerPasses` |
| Controller.ControllerKeepsValid | src/edu/umw/cpsc/collegesim/Sim.java:377-479 | every controller step keeps the campus invariant |
| Controller.ControllerPasses | src/edu/umw/cpsc/collegesim/Sim.java:377-479 | past the end nothing changes. In an academic month the wake's campus is the August pass `YearStart` on this wake's freshman draws, so the roster and groups grow by the configured amounts. In a summer month it is the May pass `YearEnd` on this wake's dropout and dissolution draws, so they do not grow and no id is issued. The facts about `YearStart` and `YearEnd` therefore hold of every wake |
| Controller.ControllerCycle | src/edu/umw/cpsc/collegesim/Sim.java:382-477 | from months 0-2 the controller runs August, wakes 9 months later for May, and 12 months later is back in the same month, which is academic |
| Controller.SealedForever | src/edu/umw/cpsc/collegesim/Sim.java:250-252 | once the clock is past the end, every later wake seals again |

## Notes on the code

- The May pass dissolves a group exactly when its draw is above 0.75
  (`Sim.java:451-455`), so each group is dissolved with probability 0.25.
  The model follows the code: `Departure.DissolvedMeaning` states the rule.
- The May branch of `Sim.step` tests `isEndOfSim()` a second time
  (`Sim.java:431`). The clock has not moved since the first test, so the
  second test always passes and the model does not repeat it.

## Left out

- Logging, CSV output, the command line, the singleton instance and the
  per-year snapshots are I/O and have no effect on the simulation state.
- MASON's schedule is not modelled. Each step returns a `Next` wake request
  (relative months, dormant, or sealed). The fractional schedule offsets (1.5,
  2.0 and 1.1 in `Sim.java:154-165`, 1.4 in `Sim.java:403`) are not
  modelled.
- The random generator is replaced by explicit parameters:
  - `encounter` reads its index picks and friendship draws from two
    finite sequences;
  - an encounter stops early when the draws run out at a stranger;
  - `Step` shares one stream of friendship draws between its two encounters.
- Friendship.Encounter: promises exactly the clamped number of encounters
  only when the picks (after skipping self-picks) and the draws are long
  enough. The source's random generator never runs out, so there the count
  is always exact.
- StudentStep.Encounters: like `Friendship.Encounter`, it promises the
  exact number of encounters in each phase only when the picks and draws
  are long enough; `StudentStep.EncounterPhase` and `StudentStep.Step`
  carry the same condition.
- Departure.Leavers takes one dropout draw per roster position. A graduate's
  draw is ignored, whereas the source draws only for non-graduates.
- The campus-wide pool of `step()` is the roster in roster order. The
  source uses the network's node order; both hold the same students.
- `Decay.DecayInOrder` takes the hash table's enumeration order as a
  parameter. `StudentStep.Step` uses `Decay.DecayAll`, which
  `DecayInOrder` proves equal for every order.
- Decay removes an edge that is not there (`removeEdge(null)`) as a no-op.
- `personalityDrift` (`Person.java:235-294`, called from `step()` at
  `Person.java:554`) and the `setIndAttrValue` it calls are left out: they
  nudge independent attributes by floating-point averaging and random
  draws. In the model a student's attributes never change after creation.
- `possiblyAbsorbAttributesFrom` has an empty body, and `leaveGroup` is
  called only from Group.java, which is not part of this model.
- `met` (`Person.java:641-648`, a read-only query) and
  `forceAddRandomOppRaceFriend` (`Person.java:1002-1015`, which befriends a
  random student of the other race) are left out because nothing in these
  sources calls them.
- `joinGroup` (`Person.java:716-718`) is not modelled. Nothing in
  Person.java or Sim.java calls it. Its caller is presumably in Group.java,
  perhaps the groups' own step, which is scheduled at `Sim.java:161` and
  `Sim.java:411`. Group.java is not part of this model. No modelled
  operation adds a member to a group.
- Enrolment.NewGroups: assumes that `new Group()` starts empty and takes the
  next id from a counter, since Group.java is not part of this model. The
  source expects otherwise: `Sim.java:41-42` describes the initial groups as
  having random initial membership, which the model does not give them. With
  no join operation modelled, every group reachable from `Enrolment.Start`
  stays empty.
- StudentStep.GroupPool: is stated for any campus, but in states reachable
  through the modelled operations the pool is always empty. The group
  encounter of `step()` therefore never runs there; it runs only from a
  campus whose groups were filled outside the model.
- Group.java is not part of this model. A group is an id and a member list.
  Leaving or dissolving clears the membership on both sides, as the calls
  in `Sim.java:456-467` rely on.
- `isLastYearOfSim()` belongs to the controller's schedule. It is a
  parameter of `StudentStep.Step`.
- Attributes.Normalize requires a non-zero total for a non-empty vector,
  because the source divides by the total. The empty vector is allowed, as
  in the source, whose loops then do not run.
- Attributes.SetDepAttrValue requires a target other than 1, because the
  source divides by one minus the target.
- People.Similarity requires a non-zero maximum rating, because the source
  divides by it.
- People.Extroversion: the source fixes every student's extroversion at
  0.5. The model allows any value in (0, 1], so the alienation facts hold
  for every such value.
- Floating point is modelled as exact real arithmetic. `Math.ceil`, the
  `(int)` cast and Java's integer `/` and `%` are written out in
  `Numerics`.
- CampusState.Valid records only that every edge has a tickle entry on both
  sides. A tickle entry may outlive its edge, as the source also allows.

=== FILE: attributes.dfy ===
/**
 The attribute vectors of a student (Person.java): constant attributes are
 booleans, independent attributes are reals compared through their sum, and
 dependent attributes are raw reals that are only ever read after being
 normalised to sum to 1.
 */
module Attributes {
  import opened Numerics

  /** Every entry divided by `d`. */
  function DivideAll(s: seq<real>, d: real): (r: seq<real>)
    requires d != 0.0
    ensures |r| == |s|
    ensures forall i :: 0 <= i < |s| ==> r[i] * d == s[i]
    ensures Sum(r) * d == Sum(s)
  {
    if |s| == 0 then []
    else
      var rest := DivideAll(s[1..], d);
      assert ([s[0] / d] + rest)[1..] == rest;
      [s[0] / d] + rest
  }

  /** `normalize`: each raw value divided by the total of the vector, so that
      the result sums to 1. An empty vector is returned as it is (the source's
      loops do not run); a non-empty vector with total 0 is outside the
      domain (Java would produce NaN or infinities there). */
  function Normalize(attr: seq<real>): (r: seq<real>)
    requires |attr| == 0 || Sum(attr) != 0.0
    ensures |r| == |attr|
    ensures forall i :: 0 <= i < |attr| ==> r[i] * Sum(attr) == attr[i]
    ensures |attr| > 0 ==> Sum(r) == 1.0
  {
    if |attr| == 0 then []
    else
      DividedByTotalSumsToOne(attr);
      DivideAll(attr, Sum(attr))
  }

  lemma DividedByTotalSumsToOne(attr: seq<real>)
    requires Sum(attr) != 0.0
    ensures Sum(DivideAll(attr, Sum(attr))) == 1.0
  {
    var x, d := Sum(DivideAll(attr, Sum(attr))), Sum(attr);
    assert x * d == d;
    assert (x - 1.0) * d == 0.0;
  }

  /** The sum of all raw entries other than entry `i`, which is what the loop
      of `setDepAttrValue` accumulates. */
  function SumOthers(attr: seq<real>, i: nat): real
    requires i < |attr|
  {
    Sum(attr[..i]) + Sum(attr[i+1..])
  }

  /** `setDepAttrValue(i, val)`: the raw value of entry `i` is recomputed as
      val·others/(1 − val), so that after normalisation entry `i` reads `val`;
      every other raw entry is untouched. `val == 1` divides by zero in the
      source and is outside the domain. */
  function SetDepAttrValue(attr: seq<real>, i: nat, val: real): (r: seq<real>)
    requires i < |attr| && val != 1.0
    ensures |r| == |attr|
    ensures forall j :: 0 <= j < |attr| && j != i ==> r[j] == attr[j]
  {
    attr[i := (val * SumOthers(attr, i)) / (1.0 - val)]
  }

  /** After `SetDepAttrValue(attr, i, val)`, provided the other raw entries
      do not sum to 0, the vector can still be normalised, its normalised
      entry `i` is exactly `val`, and the normalised vector sums to 1. */
  lemma SetDepAttrValueReachesTarget(attr: seq<real>, i: nat, val: real)
    requires i < |attr| && val != 1.0
    requires SumOthers(attr, i) != 0.0
    ensures Sum(SetDepAttrValue(attr, i, val)) != 0.0
    ensures Normalize(SetDepAttrValue(attr, i, val))[i] == val
    ensures Sum(Normalize(SetDepAttrValue(attr, i, val))) == 1.0
  {
    var others := SumOthers(attr, i);
    var r := SetDepAttrValue(attr, i, val);
    var raw := r[i];
    RawValueOfTarget(attr, i, val);
    assert r[..i] == attr[..i] && r[i+1..] == attr[i+1..];
    SumAround(r, i);
    assert Sum(r) == raw + others;
    TotalIsNonZero(others, val, raw);
    NormalizedEntryIsTarget(others, val, raw, Normalize(r)[i]);
  }

  lemma RawValueOfTarget(attr: seq<real>, i: nat, val: real)
    requires i < |attr| && val != 1.0
    ensures SetDepAttrValue(attr, i, val)[i] == (val * SumOthers(attr, i)) / (1.0 - val)
  {
  }

  /** With raw = v·S/(1−v) and S ≠ 0, the new total raw + S is S/(1−v) ≠ 0. */
  lemma TotalIsNonZero(others: real, val: real, raw: real)
    requires others != 0.0 && val != 1.0
    requires raw == (val * others) / (1.0 - val)
    ensures (raw + others) * (1.0 - val) == others
    ensures raw + others != 0.0
  {
    assert raw * (1.0 - val) == val * others;
  }

  /** The algebra behind `SetDepAttrValue`: the normalised value
      raw/(raw + S) is v. */
  lemma NormalizedEntryIsTarget(others: real, val: real, raw: real, n: real)
    requires others != 0.0 && val != 1.0
    requires raw == (val * others) / (1.0 - val)
    requires n * (raw + others) == raw
    ensures n == val
  {
    var k := 1.0 - val;
    TotalIsNonZero(others, val, raw);
    assert raw * k == val * others;
    assert n * others == n * (raw + others) * k;
    assert n * others == val * others;
  }

  /** The boolean `attrCounter`: how many of the first `num` constant
      attributes two students share. */
  function CountMatches(num: nat, a1: seq<bool>, a2: seq<bool>): (r: nat)
    requires num <= |a1| && num <= |a2|
    ensures r <= num
    ensures r == num <==> forall i :: 0 <= i < num ==> a1[i] == a2[i]
  {
    if num == 0 then 0
    else CountMatches(num - 1, a1, a2) + (if a1[num - 1] == a2[num - 1] then 1 else 0)
  }

  lemma {:induction false} CountMatchesSymmetric(num: nat, a1: seq<bool>, a2: seq<bool>)
    requires num <= |a1| && num <= |a2|
    ensures CountMatches(num, a1, a2) == CountMatches(num, a2, a1)
  {
    if num > 0 {
      CountMatchesSymmetric(num - 1, a1, a2);
    }
  }

  /** The real-valued `attrCounter`: the pool size minus the distance between
      the sums of the first `num` entries of the two vectors. (The source's
      former per-entry interval comparison is commented out; the `interval`
      argument is unused.) */
  function SumCloseness(num: nat, a1: seq<real>, a2: seq<real>): real
    requires num <= |a1| && num <= |a2|
  {
    num as real - Abs(Sum(a1[..num]) - Sum(a2[..num]))
  }

  /** The closeness score is symmetric, never exceeds the pool size, and
      reaches it exactly when the two sums agree. */
  lemma SumClosenessFacts(num: nat, a1: seq<real>, a2: seq<real>)
    requires num <= |a1| && num <= |a2|
    ensures SumCloseness(num, a1, a2) == SumCloseness(num, a2, a1)
    ensures SumCloseness(num, a1, a2) <= num as real
    ensures SumCloseness(num, a1, a2) == num as real <==> Sum(a1[..num]) == Sum(a2[..num])
  {
  }

  /** When both vectors hold values in [0, 1], the closeness score is not
      negative. */
  lemma SumClosenessNonNegative(num: nat, a1: seq<real>, a2: seq<real>)
    requires num <= |a1| && num <= |a2|
    requires forall i :: 0 <= i < |a1| ==> 0.0 <= a1[i] <= 1.0
    requires forall i :: 0 <= i < |a2| ==> 0.0 <= a2[i] <= 1.0
    ensures 0.0 <= SumCloseness(num, a1, a2)
  {
    SumBounds(a1[..num], 0.0, 1.0);
    SumBounds(a2[..num], 0.0, 1.0);
  }

  /** Two normalised vectors of the full pool length always sum to the same
      value (1), so their closeness is the whole pool: in exact arithmetic
      the dependent attributes cannot change the similarity score. */
  lemma NormalizedClosenessIsPool(a1: seq<real>, a2: seq<real>)
    requires |a1| == |a2| > 0
    requires Sum(a1) != 0.0 && Sum(a2) != 0.0
    ensures SumCloseness(|a1|, Normalize(a1), Normalize(a2)) == |a1| as real
  {
    var n1, n2 := Normalize(a1), Normalize(a2);
    assert n1[..|a1|] == n1 && n2[..|a2|] == n2;
  }
}

=== FILE: calendar.dfy ===
/**
 The simulation calendar of Sim.java: one schedule unit is a month, a year
 has 9 academic months followed by 3 summer months, and the schedule clock is
 a real number.
 */
module Calendar {
  import opened Numerics

  const NumMonthsInAcademicYear: int := 9
  const NumMonthsInSummer: int := 3
  const NumMonthsInYear: int := NumMonthsInAcademicYear + NumMonthsInSummer

  /** What a scheduled agent asks of the schedule when its step ends: to be
      woken again after some months, nothing more, or to seal the schedule. */
  datatype Next = WakeIn(months: int) | Dormant | Sealed

  /** `nextMonthInAcademicYear`: the clock rounded up, taken modulo 12 with
      Java's remainder, is one of the 9 academic months. */
  predicate NextMonthInAcademicYear(t: real)
  {
    JavaRem(Ceil(t), NumMonthsInYear) < NumMonthsInAcademicYear
  }

  /** `getCurrYearNum`: the cast `(int)` applies to the clock before the
      integer division by 12. */
  function CurrYearNum(t: real): int
  {
    JavaQuot(Trunc(t), NumMonthsInYear)
  }

  /** `isEndOfSim`: the elapsed years, as a real quotient, exceed the
      configured number of years. */
  predicate IsEndOfSim(t: real, years: int)
  {
    t / NumMonthsInYear as real > years as real
  }

  /** The academic-month test is "ceil(t) mod 12 < 9" with the mathematical
      remainder; a clock that rounds up to a negative month always passes,
      because Java's remainder is then not positive. */
  lemma AcademicMonthRule(t: real)
    ensures NextMonthInAcademicYear(t) <==> Ceil(t) < 0 || Ceil(t) % NumMonthsInYear < NumMonthsInAcademicYear
  {
    JavaDivision(Ceil(t), NumMonthsInYear);
  }

  /** On a non-negative clock the year number counts the whole 12-month years
      elapsed: it is trunc(t) div 12 and the clock lies inside that year. */
  lemma YearNumRule(t: real)
    requires t >= 0.0
    ensures CurrYearNum(t) == t.Floor / NumMonthsInYear
    ensures (NumMonthsInYear * CurrYearNum(t)) as real <= t < (NumMonthsInYear * (CurrYearNum(t) + 1)) as real
  {
    JavaDivision(Trunc(t), NumMonthsInYear);
  }

  /** The end test is a plain comparison of the clock with 12 months per
      configured year. */
  lemma EndOfSimRule(t: real, years: int)
    ensures IsEndOfSim(t, years) <==> t > (NumMonthsInYear * years) as real
  {
    var m := NumMonthsInYear as real;
    if IsEndOfSim(t, years) {
      assert t / m * m == t;
    } else {
      assert t / m * m == t;
    }
  }

  lemma CeilShift(t: real, n: int)
    ensures Ceil(t + n as real) == Ceil(t) + n
  {
  }

  /** The controller alternation on the calendar: a clock whose ceiling falls
      in months 0-2 of a year is academic; 9 months later it is not; 12 months
      later it is in the same month of the next year and academic again. */
  lemma PhaseAlternation(t: real)
    requires t >= 0.0
    requires 0 <= Ceil(t) % NumMonthsInYear <= 2
    ensures NextMonthInAcademicYear(t)
    ensures !NextMonthInAcademicYear(t + NumMonthsInAcademicYear as real)
    ensures NextMonthInAcademicYear(t + NumMonthsInYear as real)
  {
    var c := Ceil(t);
    var m := c % NumMonthsInYear;
    var q := c / NumMonthsInYear;
    assert c == NumMonthsInYear * q + m;
    CeilShift(t, NumMonthsInAcademicYear);
    CeilShift(t, NumMonthsInYear);
    RemainderOf(c + NumMonthsInAcademicYear, q, m + NumMonthsInAcademicYear);
    RemainderOf(c + NumMonthsInYear, q + 1, m);
    AcademicMonthRule(t);
    AcademicMonthRule(t + NumMonthsInAcademicYear as real);
    AcademicMonthRule(t + NumMonthsInYear as real);
  }

  lemma RemainderOf(x: int, q: int, m: int)
    requires 0 <= m < NumMonthsInYear && x == NumMonthsInYear * q + m
    ensures x % NumMonthsInYear == m
  {
  }
}

=== FILE: campus.dfy ===
/**
 The whole simulation state owned by Sim.java: the roster of students
 (`peopleList`), the friendship network (`peopleGraph`), the groups
 (`allGroups`) and the id counters, together with the invariant the
 operations keep.
 */
module CampusState {
  import opened Numerics
  import opened Graph
  import opened People

  /** A group (Group.java): an id and the ids of its members. */
  datatype Group = Group(id: int, members: seq<int>)

  datatype Campus = Campus(
    roster: seq<Person>,
    net: Network,
    groups: seq<Group>,
    nextPersonId: int,
    nextGroupId: int)

  function Ids(roster: seq<Person>): set<int>
  {
    set p | p in roster :: p.id
  }

  function GroupIds(groups: seq<Group>): set<int>
  {
    set g | g in groups :: g.id
  }

  /** The roster's ids in roster order. */
  function IdSeq(roster: seq<Person>): (r: seq<int>)
    ensures |r| == |roster|
    ensures forall k :: 0 <= k < |roster| ==> r[k] == roster[k].id
    ensures forall x :: x in r <==> x in Ids(roster)
  {
    var r := seq(|roster|, k requires 0 <= k < |roster| => roster[k].id);
    assert forall x :: x in Ids(roster) ==> x in r by {
      forall x | x in Ids(roster)
        ensures x in r
      {
        var p :| p in roster && p.id == x;
        var k :| 0 <= k < |roster| && roster[k] == p;
        assert r[k] == x;
      }
    }
    r
  }

  /** The position of the student with the given id. */
  function IndexOf(roster: seq<Person>, id: int): (k: nat)
    requires id in Ids(roster)
    ensures k < |roster| && roster[k].id == id
  {
    if roster[0].id == id then 0
    else
      assert id in Ids(roster[1..]) by {
        var p :| p in roster && p.id == id;
        var j :| 0 <= j < |roster| && roster[j] == p;
        assert roster[1..][j - 1] == p;
      }
      1 + IndexOf(roster[1..], id)
  }

  function Lookup(roster: seq<Person>, id: int): (p: Person)
    requires id in Ids(roster)
    ensures p in roster && p.id == id
  {
    roster[IndexOf(roster, id)]
  }

  ghost predicate UniqueIds(roster: seq<Person>)
  {
    forall i, j :: 0 <= i < |roster| && 0 <= j < |roster| && roster[i].id == roster[j].id ==> i == j
  }

  ghost predicate UniqueGroupIds(groups: seq<Group>)
  {
    forall i, j :: 0 <= i < |groups| && 0 <= j < |groups| && groups[i].id == groups[j].id ==> i == j
  }

  /** The half of the edge/tickle correspondence that the source maintains:
      an edge between two students means each has a tickle entry for the
      other. (The converse fails once a student is removed: the survivors
      keep their entries for the removed id.) */
  ghost predicate EdgesRecorded(c: Campus)
  {
    forall k, b :: 0 <= k < |c.roster| && Linked(c.net, c.roster[k].id, b) ==> b in c.roster[k].lastTickle
  }

  /** Group membership is recorded on both sides and refers to live ids. */
  ghost predicate MembershipConsistent(c: Campus)
  {
    && (forall i, x :: 0 <= i < |c.groups| && x in c.groups[i].members ==> x in Ids(c.roster))
    && (forall k, g :: 0 <= k < |c.roster| && g in c.roster[k].groups ==> g in GroupIds(c.groups))
    && (forall i, k :: 0 <= i < |c.groups| && 0 <= k < |c.roster| ==>
          (c.roster[k].id in c.groups[i].members <==> c.groups[i].id in c.roster[k].groups))
  }

  /** The campus invariant. */
  ghost predicate Valid(cfg: Config, c: Campus)
  {
    && MaxRating(cfg) != 0.0
    && UniqueIds(c.roster)
    && (forall k :: 0 <= k < |c.roster| ==> c.roster[k].id < c.nextPersonId)
    && AllShaped(cfg, c.roster)
    && (forall k :: 0 <= k < |c.roster| ==> Sampled(c.roster[k]))
    && c.net.nodes == Ids(c.roster)
    && Wf(c.net)
    && EdgesRecorded(c)
    && UniqueGroupIds(c.groups)
    && (forall i :: 0 <= i < |c.groups| ==> c.groups[i].id < c.nextGroupId)
    && MembershipConsistent(c)
  }

  /** The part of the invariant the friendship operations rely on: the
      similarity score is defined for every pair of students, and the
      network's nodes are exactly the roster. */
  ghost predicate Ready(cfg: Config, c: Campus)
  {
    && MaxRating(cfg) != 0.0
    && c.net.nodes == Ids(c.roster)
    && AllShaped(cfg, c.roster)
  }

  /** Every student of the roster is shaped (stated by recursion on the
      roster; `AllShapedMeaning` gives the pointwise reading). */
  predicate AllShaped(cfg: Config, roster: seq<Person>)
  {
    |roster| == 0 || (Shaped(cfg, roster[0]) && AllShaped(cfg, roster[1..]))
  }

  lemma {:induction false} AllShapedMeaning(cfg: Config, roster: seq<Person>)
    ensures AllShaped(cfg, roster) <==> forall k :: 0 <= k < |roster| ==> Shaped(cfg, roster[k])
  {
    if |roster| > 0 {
      AllShapedMeaning(cfg, roster[1..]);
      assert forall k :: 1 <= k < |roster| ==> roster[k] == roster[1..][k - 1];
    }
  }

  /** `r` differs from `c` at most in the students' tickle maps and in the
      edge set. */
  ghost predicate SameExceptTickles(c: Campus, r: Campus)
  {
    && r.net.nodes == c.net.nodes
    && r.groups == c.groups
    && r.nextPersonId == c.nextPersonId
    && r.nextGroupId == c.nextGroupId
    && |r.roster| == |c.roster|
    && (forall k :: 0 <= k < |c.roster| ==> SameButTickles(c.roster[k], r.roster[k]))
  }

  /** `b` is student `a`, except perhaps for the tickle map. */
  ghost predicate SameButTickles(a: Person, b: Person)
  {
    && b.id == a.id && b.year == a.year && b.race == a.race && b.gender == a.gender
    && b.extroversion == a.extroversion && b.groups == a.groups
    && b.constAttrs == a.constAttrs && b.indepAttrs == a.indepAttrs && b.depAttrs == a.depAttrs
  }

  /** Changing only tickle maps and edges keeps the invariant as long as the
      edges stay well formed and recorded. */
  lemma SameExceptTicklesValid(cfg: Config, c: Campus, r: Campus)
    requires Valid(cfg, c) && SameExceptTickles(c, r)
    requires Wf(r.net) && EdgesRecorded(r)
    ensures Valid(cfg, r)
    ensures Ids(r.roster) == Ids(c.roster)
  {
    assert forall k :: 0 <= k < |c.roster| ==> r.roster[k].id == c.roster[k].id;
    IdsPointwise(c.roster, r.roster);
    SameExceptTicklesReady(cfg, c, r);
  }

  /** Changing only tickle maps and edges keeps the students and the nodes,
      hence readiness. */
  lemma SameExceptTicklesReady(cfg: Config, c: Campus, r: Campus)
    requires Ready(cfg, c) && SameExceptTickles(c, r)
    ensures Ready(cfg, r)
    ensures Ids(r.roster) == Ids(c.roster)
  {
    SameExceptTicklesIds(c, r);
    AllShapedMeaning(cfg, c.roster);
    AllShapedMeaning(cfg, r.roster);
    assert forall k :: 0 <= k < |r.roster| ==> Shaped(cfg, r.roster[k]) by {
      forall k | 0 <= k < |r.roster|
        ensures Shaped(cfg, r.roster[k])
      {
        assert Shaped(cfg, c.roster[k]);
      }
    }
  }

  lemma SameExceptTicklesIds(c: Campus, r: Campus)
    requires SameExceptTickles(c, r)
    ensures Ids(r.roster) == Ids(c.roster)
  {
    assert forall k :: 0 <= k < |c.roster| ==> r.roster[k].id == c.roster[k].id;
    IdsPointwise(c.roster, r.roster);
  }

  /** The frame is transitive and keeps the set of ids. */
  lemma SameExceptTicklesChain(c: Campus, m: Campus, r: Campus)
    requires SameExceptTickles(c, m) && SameExceptTickles(m, r)
    ensures SameExceptTickles(c, r)
    ensures Ids(r.roster) == Ids(c.roster)
  {
    assert forall k :: 0 <= k < |c.roster| ==> r.roster[k].id == c.roster[k].id;
    IdsPointwise(c.roster, r.roster);
  }

  /** The two rosters list the same ids in the same order. */
  ghost predicate SameIds(a: seq<Person>, b: seq<Person>)
  {
    |a| == |b| && forall k :: 0 <= k < |a| ==> a[k].id == b[k].id
  }

  lemma SameExceptTicklesSameIds(c: Campus, r: Campus)
    requires SameExceptTickles(c, r)
    ensures SameIds(c.roster, r.roster)
  {
    assert forall k :: 0 <= k < |c.roster| ==> r.roster[k].id == c.roster[k].id;
  }

  /** Rosters listing the same ids in the same order place every id at the
      same position. */
  lemma {:induction false} IndexOfSameIds(a: seq<Person>, b: seq<Person>, id: int)
    requires SameIds(a, b) && id in Ids(a)
    ensures id in Ids(b) && IndexOf(b, id) == IndexOf(a, id)
  {
    IdsPointwise(a, b);
    if a[0].id != id {
      IdsTail(a, id);
      assert SameIds(a[1..], b[1..]);
      IndexOfSameIds(a[1..], b[1..], id);
    }
  }

  lemma IdsTail(roster: seq<Person>, id: int)
    requires id in Ids(roster) && roster[0].id != id
    ensures id in Ids(roster[1..])
  {
    var p :| p in roster && p.id == id;
    var j :| 0 <= j < |roster| && roster[j] == p;
    assert roster[1..][j - 1] == p;
  }

  lemma IdsConcat(a: seq<Person>, b: seq<Person>)
    ensures Ids(a + b) == Ids(a) + Ids(b)
  {
    forall x | x in Ids(a + b)
      ensures x in Ids(a) + Ids(b)
    {
      var p :| p in a + b && p.id == x;
    }
  }

  lemma GroupIdsConcat(a: seq<Group>, b: seq<Group>)
    ensures GroupIds(a + b) == GroupIds(a) + GroupIds(b)
  {
    forall x | x in GroupIds(a + b)
      ensures x in GroupIds(a) + GroupIds(b)
    {
      var g :| g in a + b && g.id == x;
    }
  }

  /** Every id in use is below the counters. */
  lemma IdsBelow(cfg: Config, c: Campus)
    requires Valid(cfg, c)
    ensures forall x :: x in Ids(c.roster) ==> x < c.nextPersonId
    ensures forall x :: x in GroupIds(c.groups) ==> x < c.nextGroupId
  {
    forall x | x in Ids(c.roster)
      ensures x < c.nextPersonId
    {
      var p :| p in c.roster && p.id == x;
      var k :| 0 <= k < |c.roster| && c.roster[k] == p;
    }
    forall x | x in GroupIds(c.groups)
      ensures x < c.nextGroupId
    {
      var g :| g in c.groups && g.id == x;
      var k :| 0 <= k < |c.groups| && c.groups[k] == g;
    }
  }

  lemma IdsPointwise(a: seq<Person>, b: seq<Person>)
    requires |a| == |b|
    requires forall k :: 0 <= k < |a| ==> a[k].id == b[k].id
    ensures Ids(a) == Ids(b)
  {
    assert IdSeq(a) == IdSeq(b);
  }

  /** `refreshLastTickleTime` run by student `a` for peer `b`. */
  function Refresh(roster: seq<Person>, a: int, b: int, now: real): (r: seq<Person>)
    ensures |r| == |roster|
    ensures forall k :: 0 <= k < |roster| ==>
              SameButTickles(roster[k], r[k]) &&
              r[k].lastTickle == if roster[k].id == a then roster[k].lastTickle[b := now] else roster[k].lastTickle
  {
    seq(|roster|, k requires 0 <= k < |roster| =>
          if roster[k].id == a then roster[k].(lastTickle := roster[k].lastTickle[b := now]) else roster[k])
  }

  /** `resetLastTickleTime` run by student `a` for peer `b`. */
  function Forget(roster: seq<Person>, a: int, b: int): (r: seq<Person>)
    ensures |r| == |roster|
    ensures forall k :: 0 <= k < |roster| ==>
              SameButTickles(roster[k], r[k]) &&
              r[k].lastTickle == if roster[k].id == a then roster[k].lastTickle - {b} else roster[k].lastTickle
  {
    seq(|roster|, k requires 0 <= k < |roster| =>
          if roster[k].id == a then roster[k].(lastTickle := roster[k].lastTickle - {b}) else roster[k])
  }

  ghost predicate NoDup(s: seq<int>)
  {
    forall i, j :: 0 <= i < j < |s| ==> s[i] != s[j]
  }

  /** The inner loop of `getPeopleInGroups`: append each member not yet
      collected. */
  function AddAbsent(acc: seq<int>, xs: seq<int>): (r: seq<int>)
    requires NoDup(acc)
    ensures NoDup(r)
    ensures forall x :: x in r <==> x in acc || x in xs
    decreases |xs|
  {
    if |xs| == 0 then acc
    else if xs[0] in acc then AddAbsent(acc, xs[1..])
    else AddAbsent(acc + [xs[0]], xs[1..])
  }

  /** The outer loop of `getPeopleInGroups`, over the student's groups. */
  function Gather(acc: seq<int>, gs: seq<Group>): (r: seq<int>)
    requires NoDup(acc)
    ensures NoDup(r)
    ensures forall x :: x in r <==> x in acc || exists i :: 0 <= i < |gs| && x in gs[i].members
    decreases |gs|
  {
    if |gs| == 0 then acc
    else
      var r := Gather(AddAbsent(acc, gs[0].members), gs[1..]);
      assert forall x :: (exists i :: 0 <= i < |gs| && x in gs[i].members) <==>
                         x in gs[0].members || exists i :: 0 <= i < |gs| - 1 && x in gs[1..][i].members by {
        forall x
          ensures (exists i :: 0 <= i < |gs| && x in gs[i].members) ==>
                  x in gs[0].members || exists i :: 0 <= i < |gs| - 1 && x in gs[1..][i].members
        {
          if i :| 0 <= i < |gs| && x in gs[i].members {
            if i > 0 {
              assert x in gs[1..][i - 1].members;
            }
          }
        }
      }
      r
  }

  /** `getPeopleInGroups`: every member of any of the given groups, each
      exactly once, and nobody else. */
  function PeopleInGroups(gs: seq<Group>): (r: seq<int>)
    ensures NoDup(r)
    ensures forall x :: x in r <==> exists i :: 0 <= i < |gs| && x in gs[i].members
  {
    Gather([], gs)
  }

  function FindGroup(groups: seq<Group>, gid: int): (g: Group)
    requires gid in GroupIds(groups)
    ensures g in groups && g.id == gid
  {
    if groups[0].id == gid then groups[0]
    else
      assert gid in GroupIds(groups[1..]) by {
        var h :| h in groups && h.id == gid;
        var j :| 0 <= j < |groups| && groups[j] == h;
        assert groups[1..][j - 1] == h;
      }
      FindGroup(groups[1..], gid)
  }

  /** The group records a student belongs to, in the student's own order. */
  function MyGroups(groups: seq<Group>, p: Person): (r: seq<Group>)
    requires forall g :: g in p.groups ==> g in GroupIds(groups)
    ensures |r| == |p.groups|
    ensures forall i :: 0 <= i < |r| ==> r[i] in groups && r[i].id == p.groups[i]
  {
    seq(|p.groups|, i requires 0 <= i < |p.groups| => FindGroup(groups, p.groups[i]))
  }
}

=== FILE: controller.dfy ===
/**
 The step of the Sim agent itself (Sim.java): on each wake it either seals
 the schedule, runs the August pass and sleeps through the academic year, or
 runs the May pass and sleeps through the summer.
 */
module Controller {
  import opened Numerics
  import opened Calendar
  import opened People
  import opened CampusState
  import opened Enrolment
  import opened Departure

  /** The random outcomes one controller wake consumes: the freshman
      constructors in August, the dropout and dissolution draws in May. */
  datatype Randomness = Randomness(freshmen: seq<Draws>, drops: seq<real>, groupDraws: seq<real>)

  /** The draws fit the pass that the clock selects. */
  ghost predicate Fits(cfg: Config, c: Campus, now: real, rnd: Randomness)
  {
    if NextMonthInAcademicYear(now) then
      |rnd.freshmen| == Times(cfg.numFreshmen) && forall i :: 0 <= i < |rnd.freshmen| ==> DrawsFit(cfg, rnd.freshmen[i])
    else
      |rnd.drops| == |c.roster| && |rnd.groupDraws| == |c.groups|
  }

  /** The schedule request of the controller at clock `now`. The May branch
      of the source tests `isEndOfSim()` a second time; the clock has not
      moved since the first test, so that test always passes. */
  function Wake(now: real, years: int): (n: Next)
    ensures n == Sealed <==> now > (NumMonthsInYear * years) as real
    ensures n != Sealed && NextMonthInAcademicYear(now) ==> n == WakeIn(NumMonthsInAcademicYear)
    ensures n != Sealed && !NextMonthInAcademicYear(now) ==> n == WakeIn(NumMonthsInSummer)
    ensures n != Dormant
  {
    EndOfSimRule(now, years);
    if IsEndOfSim(now, years) then Sealed
    else if NextMonthInAcademicYear(now) then WakeIn(NumMonthsInAcademicYear)
    else WakeIn(NumMonthsInSummer)
  }

  datatype Tick = Tick(campus: Campus, next: Next)

  /** One wake of the controller. */
  function ControllerStep(cfg: Config, c: Campus, now: real, rnd: Randomness): (t: Tick)
    requires Fits(cfg, c, now, rnd)
    ensures t.next == Wake(now, cfg.numSimulationYears)
    ensures t.next == Sealed ==> t.campus == c
  {
    if IsEndOfSim(now, cfg.numSimulationYears) then Tick(c, Sealed)
    else if NextMonthInAcademicYear(now) then
      Tick(YearStart(cfg, c, rnd.freshmen), WakeIn(NumMonthsInAcademicYear))
    else
      Tick(YearEnd(c, rnd.drops, rnd.groupDraws), WakeIn(NumMonthsInSummer))
  }

  /** Every wake keeps the campus invariant: August through
      `YearStartMeaning`, May through `YearEndValid`. */
  lemma ControllerKeepsValid(cfg: Config, c: Campus, now: real, rnd: Randomness)
    requires Valid(cfg, c) && Fits(cfg, c, now, rnd)
    ensures Valid(cfg, ControllerStep(cfg, c, now, rnd).campus)
  {
    if !IsEndOfSim(now, cfg.numSimulationYears) {
      if NextMonthInAcademicYear(now) {
        YearStartMeaning(cfg, c, rnd.freshmen);
      } else {
        YearEndValid(cfg, c, rnd.drops, rnd.groupDraws);
      }
    }
  }

  /** Which pass a wake runs: nothing once the clock is past the configured
      years; otherwise the August pass `YearStart` with this wake's freshman
      draws in an academic month, and the May pass `YearEnd` with this wake's
      dropout and dissolution draws in a summer month. The facts proved
      about those passes (`YearStartMeaning`, `YearEndStudents`,
      `YearEndGroups`, ...) therefore hold of the controller's wake. */
  lemma ControllerPasses(cfg: Config, c: Campus, now: real, rnd: Randomness)
    requires Fits(cfg, c, now, rnd)
    ensures var t := ControllerStep(cfg, c, now, rnd);
            && (now > (NumMonthsInYear * cfg.numSimulationYears) as real ==> t.campus == c)
            && (now <= (NumMonthsInYear * cfg.numSimulationYears) as real && NextMonthInAcademicYear(now) ==>
                  t.campus == YearStart(cfg, c, rnd.freshmen))
            && (now <= (NumMonthsInYear * cfg.numSimulationYears) as real && !NextMonthInAcademicYear(now) ==>
                  t.campus == YearEnd(c, rnd.drops, rnd.groupDraws))
            && (now <= (NumMonthsInYear * cfg.numSimulationYears) as real && NextMonthInAcademicYear(now) ==>
                  |t.campus.roster| == |c.roster| + Times(cfg.numFreshmen) &&
                  |t.campus.groups| == |c.groups| + Times(cfg.numNewGroups))
            && (now <= (NumMonthsInYear * cfg.numSimulationYears) as real && !NextMonthInAcademicYear(now) ==>
                  |t.campus.roster| <= |c.roster| && |t.campus.groups| <= |c.groups| &&
                  t.campus.nextPersonId == c.nextPersonId)
  {
    EndOfSimRule(now, cfg.numSimulationYears);
  }

  /** The yearly rhythm: a controller that wakes in month 0, 1 or 2 of a year
      and is not past the end runs the August pass and asks for 9 months;
      woken then, it finds a summer month and (unless past the end) runs the
      May pass and asks for 3 months; that brings it back to the same month
      of the next year, where the cycle repeats. */
  lemma ControllerCycle(t: real, years: int)
    requires t >= 0.0
    requires 0 <= Ceil(t) % NumMonthsInYear <= 2
    ensures Wake(t, years) == Sealed || Wake(t, years) == WakeIn(NumMonthsInAcademicYear)
    ensures var t2 := t + NumMonthsInAcademicYear as real;
            Wake(t2, years) == Sealed || Wake(t2, years) == WakeIn(NumMonthsInSummer)
    ensures var t3 := t + (NumMonthsInAcademicYear + NumMonthsInSummer) as real;
            Ceil(t3) % NumMonthsInYear == Ceil(t) % NumMonthsInYear && NextMonthInAcademicYear(t3)
  {
    PhaseAlternation(t);
    var c := Ceil(t);
    CeilShift(t, NumMonthsInYear);
    RemainderOf(c + NumMonthsInYear, c / NumMonthsInYear + 1, c % NumMonthsInYear);
  }

  /** Once the clock is past the end it stays past it: every later wake
      seals the schedule. */
  lemma SealedForever(t: real, later: real, years: int)
    requires Wake(t, years) == Sealed && t <= later
    ensures Wake(later, years) == Sealed
  {
  }
}

=== FILE: decay.dfy ===
/**
 `decay()` of Person.java: a student walks the keys of its own tickle map
 and ends every relationship whose last tickle is at least the decay
 threshold old. For a friend this removes the edge and both tickle entries;
 for a key that is no longer a friend (a student who left, say) it removes
 only the student's own entry.
 */
module Decay {
  import opened Graph
  import opened People
  import opened CampusState

  /** The entry for `f` exists and is at least `threshold` months old. */
  predicate Stale(m: map<int, real>, f: int, now: real, threshold: int)
  {
    f in m && now - m[f] >= threshold as real
  }

  /** The stale keys among `keys`. */
  function StaleKeys(m: map<int, real>, keys: set<int>, now: real, threshold: int): (r: set<int>)
    ensures forall f :: f in r <==> f in keys && Stale(m, f, now, threshold)
  {
    set f | f in keys && Stale(m, f, now, threshold)
  }

  /** `r` is `c` after student `me` has let go of the ids in `gone`: the
      edges between `me` and `gone` are removed, `me` forgets every id of
      `gone`, each of those that was a friend forgets `me`, and nothing else
      changes. */
  ghost predicate Decayed(c: Campus, r: Campus, me: int, gone: set<int>)
  {
    && SameExceptTickles(c, r)
    && r.net.edges <= c.net.edges
    && (forall x, y :: Linked(r.net, x, y) <==>
          Linked(c.net, x, y) && !(x == me && y in gone) && !(y == me && x in gone))
    && (forall k :: 0 <= k < |c.roster| ==>
          r.roster[k].lastTickle ==
            if c.roster[k].id == me then c.roster[k].lastTickle - gone
            else if c.roster[k].id in gone && Linked(c.net, me, c.roster[k].id) then c.roster[k].lastTickle - {me}
            else c.roster[k].lastTickle)
  }

  /** The body of the loop of `decay` for a stale key `f` of student `me`:
      if an edge joins them it is removed and `f` forgets `me`; in every
      case `me` forgets `f`. */
  function DecayKey(c: Campus, me: int, f: int): (r: Campus)
  {
    if Linked(c.net, me, f) then
      c.(net := RemoveEdge(c.net, me, f), roster := Forget(Forget(c.roster, f, me), me, f))
    else
      c.(roster := Forget(c.roster, me, f))
  }

  /** Dropping one key is letting go of exactly that id. */
  lemma DecayKeyDecays(c: Campus, me: int, f: int)
    ensures Decayed(c, DecayKey(c, me, f), me, {f})
  {
    var r := DecayKey(c, me, f);
    forall x, y
      ensures Linked(r.net, x, y) <==> Linked(c.net, x, y) && !(x == me && y in {f}) && !(y == me && x in {f})
    {
      PairFacts(x, y, me, f);
    }
  }

  /** Letting go of `g1` and then of a disjoint `g2` is letting go of both. */
  lemma DecayedCompose(c: Campus, m: Campus, r: Campus, me: int, g1: set<int>, g2: set<int>)
    requires Decayed(c, m, me, g1) && Decayed(m, r, me, g2) && g1 !! g2
    ensures Decayed(c, r, me, g1 + g2)
  {
    SameExceptTicklesChain(c, m, r);
    forall k | 0 <= k < |c.roster|
      ensures r.roster[k].lastTickle ==
                if c.roster[k].id == me then c.roster[k].lastTickle - (g1 + g2)
                else if c.roster[k].id in g1 + g2 && Linked(c.net, me, c.roster[k].id) then c.roster[k].lastTickle - {me}
                else c.roster[k].lastTickle
    {
      var id := c.roster[k].id;
      assert m.roster[k].id == id;
      if id != me && id in g2 {
        assert Linked(m.net, me, id) == Linked(c.net, me, id);
      }
    }
  }

  /** Letting go keeps the campus invariant: only edges are removed, and an
      entry is removed only together with the edge it records. */
  lemma DecayedKeepsValid(cfg: Config, c: Campus, r: Campus, me: int, gone: set<int>)
    requires Valid(cfg, c) && Decayed(c, r, me, gone)
    ensures Valid(cfg, r)
  {
    forall k, b | 0 <= k < |r.roster| && Linked(r.net, r.roster[k].id, b)
      ensures b in r.roster[k].lastTickle
    {
      assert Linked(c.net, c.roster[k].id, b);
    }
    SameExceptTicklesValid(cfg, c, r);
  }

  /** Letting go of a given set of ids determines the result. */
  lemma DecayedUnique(c: Campus, r1: Campus, r2: Campus, me: int, gone: set<int>)
    requires Decayed(c, r1, me, gone) && Decayed(c, r2, me, gone) && Wf(r1.net) && Wf(r2.net)
    ensures r1 == r2
  {
    forall k | 0 <= k < |c.roster|
      ensures r1.roster[k] == r2.roster[k]
    {
    }
    assert r1.roster == r2.roster;
    forall e | e in r1.net.edges
      ensures e in r2.net.edges
    {
      assert Linked(r1.net, e.0, e.1);
    }
    forall e | e in r2.net.edges
      ensures e in r1.net.edges
    {
      assert Linked(r2.net, e.0, e.1);
    }
    assert r1.net.edges == r2.net.edges;
  }

  /** Letting go of nothing changes nothing. */
  lemma DecayedNothing(c: Campus, r: Campus, me: int)
    requires Decayed(c, r, me, {}) && Wf(c.net) && Wf(r.net)
    ensures r == c
  {
    assert Decayed(c, c, me, {}) by {
      forall k | 0 <= k < |c.roster|
        ensures SameButTickles(c.roster[k], c.roster[k])
      {
      }
    }
    DecayedUnique(c, r, c, me, {});
  }

  /** The tickle map of student `me`. */
  function TickleMap(c: Campus, me: int): map<int, real>
    requires me in Ids(c.roster)
  {
    Lookup(c.roster, me).lastTickle
  }

  /** The effect of `decay()` run by student `me` at time `now`, stated
      directly: every stale entry of `me` is let go of at once. */
  function DecayAll(c: Campus, me: int, now: real, threshold: int): (r: Campus)
    requires me in Ids(c.roster)
    ensures Decayed(c, r, me, StaleKeys(TickleMap(c, me), TickleMap(c, me).Keys, now, threshold))
  {
    var m := TickleMap(c, me);
    var gone := StaleKeys(m, m.Keys, now, threshold);
    var edges := set e | e in c.net.edges && !(e.0 == me && e.1 in gone) && !(e.1 == me && e.0 in gone);
    var roster := seq(|c.roster|, k requires 0 <= k < |c.roster| =>
                    var p := c.roster[k];
                    if p.id == me then p.(lastTickle := p.lastTickle - gone)
                    else if p.id in gone && Linked(c.net, me, p.id) then p.(lastTickle := p.lastTickle - {me})
                    else p);
    var r := c.(net := c.net.(edges := edges), roster := roster);
    assert forall x, y :: Linked(r.net, x, y) <==>
             Linked(c.net, x, y) && !(x == me && y in gone) && !(y == me && x in gone) by {
      forall x, y
        ensures Linked(r.net, x, y) <==>
                Linked(c.net, x, y) && !(x == me && y in gone) && !(y == me && x in gone)
      {
        PairFacts(x, y, x, y);
      }
    }
    r
  }

  /** After letting go of `gone`, the tickle map of `me` is its old map
      without `gone`. */
  lemma DecayedTickleMap(c: Campus, r: Campus, me: int, gone: set<int>)
    requires Decayed(c, r, me, gone) && me in Ids(c.roster)
    ensures me in Ids(r.roster) && TickleMap(r, me) == TickleMap(c, me) - gone
  {
    SameExceptTicklesSameIds(c, r);
    IndexOfSameIds(c.roster, r.roster, me);
  }

  /** What `decay()` achieves: `me` keeps exactly its fresh entries and the
      friendships they record, loses every friendship whose entry is stale,
      and no edge between two other students changes. */
  lemma DecayMeaning(cfg: Config, c: Campus, me: int, now: real, threshold: int)
    requires Valid(cfg, c) && me in Ids(c.roster)
    ensures var r := DecayAll(c, me, now, threshold);
            var m := TickleMap(c, me);
            && me in Ids(r.roster)
            && (forall f :: f in TickleMap(r, me) <==> f in m && !Stale(m, f, now, threshold))
            && (forall f :: f in TickleMap(r, me) ==> TickleMap(r, me)[f] == m[f])
            && (forall f :: f in TickleMap(r, me) ==> now - TickleMap(r, me)[f] < threshold as real)
            && (forall f :: Linked(r.net, me, f) <==> Linked(c.net, me, f) && !Stale(m, f, now, threshold))
            && (forall x, y :: x != me && y != me ==> (Linked(r.net, x, y) <==> Linked(c.net, x, y)))
  {
    var r := DecayAll(c, me, now, threshold);
    var m := TickleMap(c, me);
    DecayedTickleMap(c, r, me, StaleKeys(m, m.Keys, now, threshold));
    forall f
      ensures Linked(r.net, me, f) <==> Linked(c.net, me, f) && !Stale(m, f, now, threshold)
    {
      LinkedFacts(c.net, me, f);
      if Linked(c.net, me, f) {
        assert f in m;
      }
    }
  }

  /** Decaying twice at the same time changes nothing the second time: the
      first pass left no stale entry behind. */
  lemma DecayIdempotent(cfg: Config, c: Campus, me: int, now: real, threshold: int)
    requires Valid(cfg, c) && me in Ids(c.roster)
    ensures var r := DecayAll(c, me, now, threshold);
            me in Ids(r.roster) && DecayAll(r, me, now, threshold) == r
  {
    var m := TickleMap(c, me);
    var r := DecayAll(c, me, now, threshold);
    var gone := StaleKeys(m, m.Keys, now, threshold);
    DecayedKeepsValid(cfg, c, r, me, gone);
    DecayedTickleMap(c, r, me, gone);
    var m2 := TickleMap(r, me);
    assert StaleKeys(m2, m2.Keys, now, threshold) == {};
    var r2 := DecayAll(r, me, now, threshold);
    DecayedKeepsValid(cfg, r, r2, me, {});
    DecayedNothing(r, r2, me);
  }

  /** The keys visited among the first `i` of the enumeration `order`. */
  function Visited(order: seq<int>, i: nat): (r: set<int>)
    requires i <= |order|
    ensures forall f :: f in r <==> f in order[..i]
  {
    set f | f in order[..i]
  }

  lemma VisitedStep(order: seq<int>, i: nat)
    requires i < |order|
    ensures Visited(order, i + 1) == Visited(order, i) + {order[i]}
  {
    assert order[..i + 1] == order[..i] + [order[i]];
  }

  /** One turn of the loop of `decay`: the key `f` is let go of if its entry
      in the snapshot `m` is stale. */
  lemma DecayTurn(cfg: Config, c: Campus, r: Campus, me: int, m: map<int, real>, now: real, threshold: int,
                  order: seq<int>, i: nat)
    requires i < |order| && order[i] in m && order[i] !in order[..i]
    requires Valid(cfg, r) && Decayed(c, r, me, StaleKeys(m, Visited(order, i), now, threshold))
    ensures var r' := if now - m[order[i]] >= threshold as real then DecayKey(r, me, order[i]) else r;
            Valid(cfg, r') && Decayed(c, r', me, StaleKeys(m, Visited(order, i + 1), now, threshold))
  {
    var f := order[i];
    var done := StaleKeys(m, Visited(order, i), now, threshold);
    VisitedStep(order, i);
    if now - m[f] >= threshold as real {
      DecayKeyDecays(r, me, f);
      DecayedCompose(c, r, DecayKey(r, me, f), me, done, {f});
      DecayedKeepsValid(cfg, r, DecayKey(r, me, f), me, {f});
      assert StaleKeys(m, Visited(order, i + 1), now, threshold) == done + {f};
    } else {
      assert StaleKeys(m, Visited(order, i + 1), now, threshold) == done;
    }
  }

  /** `decay()` run by student `me` at time `now`, visiting the keys of its
      tickle map in the enumeration order `order` (the hash table's order,
      each key once). The values are read from the map as it was on entry,
      which is what the source reads, since the loop only removes keys it
      has already visited. Whatever the order, the result is `DecayAll`. */
  method DecayInOrder(cfg: Config, c: Campus, me: int, order: seq<int>, now: real, threshold: int)
    returns (r: Campus)
    requires Valid(cfg, c) && me in Ids(c.roster)
    requires forall f :: f in order <==> f in TickleMap(c, me)
    requires NoDup(order)
    ensures Valid(cfg, r)
    ensures r == DecayAll(c, me, now, threshold)
  {
    var m := TickleMap(c, me);
    r := c;
    assert Decayed(c, c, me, {}) by {
      forall k | 0 <= k < |c.roster|
        ensures SameButTickles(c.roster[k], c.roster[k])
      {
      }
    }
    assert StaleKeys(m, Visited(order, 0), now, threshold) == {};
    for i := 0 to |order|
      invariant Valid(cfg, r)
      invariant Decayed(c, r, me, StaleKeys(m, Visited(order, i), now, threshold))
    {
      var f := order[i];
      DecayTurn(cfg, c, r, me, m, now, threshold, order, i);
      if now - m[f] >= threshold as real {
        r := DecayKey(r, me, f);
      }
    }
    DecayFinish(cfg, c, r, me, order, now, threshold);
  }

  /** Once every key of the enumeration has been visited, the loop has done
      what `DecayAll` does. */
  lemma DecayFinish(cfg: Config, c: Campus, r: Campus, me: int, order: seq<int>, now: real, threshold: int)
    requires Valid(cfg, c) && Valid(cfg, r) && me in Ids(c.roster)
    requires forall f :: f in order <==> f in TickleMap(c, me)
    requires Decayed(c, r, me, StaleKeys(TickleMap(c, me), Visited(order, |order|), now, threshold))
    ensures r == DecayAll(c, me, now, threshold)
  {
    var m := TickleMap(c, me);
    VisitedAll(order, m.Keys);
    DecayedKeepsValid(cfg, c, DecayAll(c, me, now, threshold), me, StaleKeys(m, m.Keys, now, threshold));
    DecayedUnique(c, r, DecayAll(c, me, now, threshold), me, StaleKeys(m, m.Keys, now, threshold));
  }

  lemma VisitedAll(order: seq<int>, keys: set<int>)
    requires forall f :: f in order <==> f in keys
    ensures Visited(order, |order|) == keys
  {
    assert order[..|order|] == order;
    forall f
      ensures f in Visited(order, |order|) <==> f in keys
    {
      assert f in order[..|order|] <==> f in order;
    }
  }
}

=== FILE: departure.dfy ===
/**
 The May pass of `step()` in Sim.java: students of year 4 or more graduate,
 the others may drop out with a probability that grows with their
 alienation, each group may be dissolved, and every removal is applied to
 the roster, the groups and the friendship network.
 */
module Departure {
  import opened Graph
  import opened People
  import opened CampusState

  /** Slope of the line from alienation to dropout probability. */
  const DropoutRate: real := 0.01
  /** Intercept of the line from alienation to dropout probability. */
  const DropoutIntercept: real := 0.05
  /** A group whose draw exceeds this is dissolved. */
  const DissolveAbove: real := 0.75

  /** The dropout probability of a student: `getAlienation()`, read on the
      network as it stands before anyone leaves, mapped through the line. */
  function DropoutChance(c: Campus, p: Person): (r: real)
    ensures DropoutIntercept < r <= DropoutRate + DropoutIntercept
    ensures Degree(c.net, p.id) == 0 ==> r == DropoutRate + DropoutIntercept
  {
    DropoutRate * Alienation(Degree(c.net, p.id), p.extroversion) + DropoutIntercept
  }

  /** A student leaves when of year 4 or more, or when the uniform draw
      `drop` is at most the dropout probability. */
  predicate Leaves(c: Campus, p: Person, drop: real)
  {
    p.year >= 4 || drop <= DropoutChance(c, p)
  }

  /** The ids of the students who leave; `drops[k]` is the draw for the
      student at roster position k (unused for a graduate). */
  function Leavers(c: Campus, drops: seq<real>): set<int>
    requires |drops| == |c.roster|
  {
    set k | 0 <= k < |c.roster| && Leaves(c, c.roster[k], drops[k]) :: c.roster[k].id
  }

  /** The ids of the groups dissolved; `groupDraws[j]` is the draw for the
      group at position j. */
  function Dissolved(c: Campus, groupDraws: seq<real>): set<int>
    requires |groupDraws| == |c.groups|
  {
    set j | 0 <= j < |c.groups| && groupDraws[j] > DissolveAbove :: c.groups[j].id
  }

  /** `xs` without the elements of `out`, order kept. */
  function Without(xs: seq<int>, out: set<int>): (r: seq<int>)
    ensures forall x :: x in r <==> x in xs && x !in out
    ensures |r| <= |xs|
  {
    if xs == [] then []
    else (if xs[0] in out then [] else [xs[0]]) + Without(xs[1..], out)
  }

  /** The students whose ids are not in `gone`, in roster order. */
  function Remaining(roster: seq<Person>, gone: set<int>): (r: seq<Person>)
    ensures forall p :: p in r <==> p in roster && p.id !in gone
    ensures |r| <= |roster|
  {
    if roster == [] then []
    else (if roster[0].id in gone then [] else [roster[0]]) + Remaining(roster[1..], gone)
  }

  /** The groups whose ids are not in `dissolved`, in order. */
  function Standing(groups: seq<Group>, dissolved: set<int>): (r: seq<Group>)
    ensures forall g :: g in r <==> g in groups && g.id !in dissolved
    ensures |r| <= |groups|
  {
    if groups == [] then []
    else (if groups[0].id in dissolved then [] else [groups[0]]) + Standing(groups[1..], dissolved)
  }

  /** A survivor's own list of groups loses the dissolved ones
      (`removeEveryoneFromGroup` clears both sides of the membership). */
  function Strip(p: Person, dissolved: set<int>): Person
  {
    p.(groups := Without(p.groups, dissolved))
  }

  /** A standing group loses the students who leave (`leaveUniversity`). */
  function Prune(g: Group, gone: set<int>): Group
  {
    g.(members := Without(g.members, gone))
  }

  function StripAll(roster: seq<Person>, dissolved: set<int>): (r: seq<Person>)
    ensures |r| == |roster| && forall k :: 0 <= k < |r| ==> r[k] == Strip(roster[k], dissolved)
  {
    seq(|roster|, k requires 0 <= k < |roster| => Strip(roster[k], dissolved))
  }

  function PruneAll(groups: seq<Group>, gone: set<int>): (r: seq<Group>)
    ensures |r| == |groups| && forall i :: 0 <= i < |r| ==> r[i] == Prune(groups[i], gone)
  {
    seq(|groups|, i requires 0 <= i < |groups| => Prune(groups[i], gone))
  }

  /** The May pass: all decisions are taken on the campus as it stands, then
      applied together. The id counters are not touched, so no id is reused,
      and the survivors' tickle maps are kept as they are. */
  function YearEnd(c: Campus, drops: seq<real>, groupDraws: seq<real>): (r: Campus)
    requires |drops| == |c.roster| && |groupDraws| == |c.groups|
    ensures forall x, y :: Linked(r.net, x, y) <==>
              Linked(c.net, x, y) && x !in Leavers(c, drops) && y !in Leavers(c, drops)
    ensures Wf(c.net) ==> Wf(r.net)
  {
    var gone := Leavers(c, drops);
    var dissolved := Dissolved(c, groupDraws);
    Campus(StripAll(Remaining(c.roster, gone), dissolved), RemoveNodes(c.net, gone),
           PruneAll(Standing(c.groups, dissolved), gone), c.nextPersonId, c.nextGroupId)
  }

  // ---------------------------------------------------------------------
  // Uniqueness survives filtering

  lemma UniqueCons(x: Person, rest: seq<Person>)
    requires UniqueIds(rest)
    requires forall p :: p in rest ==> p.id != x.id
    ensures UniqueIds([x] + rest)
  {
    var s := [x] + rest;
    forall i, j | 0 <= i < |s| && 0 <= j < |s| && s[i].id == s[j].id
      ensures i == j
    {
      if i > 0 { assert s[i] == rest[i - 1]; }
      if j > 0 { assert s[j] == rest[j - 1]; }
    }
  }

  lemma UniqueTail(roster: seq<Person>)
    requires UniqueIds(roster) && roster != []
    ensures UniqueIds(roster[1..])
    ensures forall p :: p in roster[1..] ==> p.id != roster[0].id
  {
    forall p | p in roster[1..]
      ensures p.id != roster[0].id
    {
      var i :| 0 <= i < |roster[1..]| && roster[1..][i] == p;
      assert roster[i + 1] == p;
    }
    forall i, j | 0 <= i < |roster[1..]| && 0 <= j < |roster[1..]| && roster[1..][i].id == roster[1..][j].id
      ensures i == j
    {
      assert roster[1..][i] == roster[i + 1] && roster[1..][j] == roster[j + 1];
    }
  }

  lemma {:induction false} RemainingUnique(roster: seq<Person>, gone: set<int>)
    requires UniqueIds(roster)
    ensures UniqueIds(Remaining(roster, gone))
  {
    if roster != [] {
      UniqueTail(roster);
      RemainingUnique(roster[1..], gone);
      if roster[0].id !in gone {
        UniqueCons(roster[0], Remaining(roster[1..], gone));
      }
    }
  }

  lemma GroupUniqueCons(x: Group, rest: seq<Group>)
    requires UniqueGroupIds(rest)
    requires forall g :: g in rest ==> g.id != x.id
    ensures UniqueGroupIds([x] + rest)
  {
    var s := [x] + rest;
    forall i, j | 0 <= i < |s| && 0 <= j < |s| && s[i].id == s[j].id
      ensures i == j
    {
      if i > 0 { assert s[i] == rest[i - 1]; }
      if j > 0 { assert s[j] == rest[j - 1]; }
    }
  }

  lemma GroupUniqueTail(groups: seq<Group>)
    requires UniqueGroupIds(groups) && groups != []
    ensures UniqueGroupIds(groups[1..])
    ensures forall g :: g in groups[1..] ==> g.id != groups[0].id
  {
    forall g | g in groups[1..]
      ensures g.id != groups[0].id
    {
      var i :| 0 <= i < |groups[1..]| && groups[1..][i] == g;
      assert groups[i + 1] == g;
    }
    forall i, j | 0 <= i < |groups[1..]| && 0 <= j < |groups[1..]| && groups[1..][i].id == groups[1..][j].id
      ensures i == j
    {
      assert groups[1..][i] == groups[i + 1] && groups[1..][j] == groups[j + 1];
    }
  }

  lemma {:induction false} StandingUnique(groups: seq<Group>, dissolved: set<int>)
    requires UniqueGroupIds(groups)
    ensures UniqueGroupIds(Standing(groups, dissolved))
  {
    if groups != [] {
      GroupUniqueTail(groups);
      StandingUnique(groups[1..], dissolved);
      if groups[0].id !in dissolved {
        GroupUniqueCons(groups[0], Standing(groups[1..], dissolved));
      }
    }
  }

  // ---------------------------------------------------------------------
  // Which ids survive

  lemma RemainingIds(roster: seq<Person>, gone: set<int>, dissolved: set<int>)
    ensures Ids(StripAll(Remaining(roster, gone), dissolved)) == Ids(roster) - gone
  {
    var f := Remaining(roster, gone);
    IdsPointwise(f, StripAll(f, dissolved));
    forall x | x in Ids(roster) - gone
      ensures x in Ids(f)
    {
      var p :| p in roster && p.id == x;
      assert p in f;
    }
  }

  lemma StandingIds(groups: seq<Group>, dissolved: set<int>, gone: set<int>)
    ensures GroupIds(PruneAll(Standing(groups, dissolved), gone)) == GroupIds(groups) - dissolved
  {
    var f := Standing(groups, dissolved);
    var r := PruneAll(f, gone);
    forall x | x in GroupIds(r)
      ensures x in GroupIds(f)
    {
      var g :| g in r && g.id == x;
      var i :| 0 <= i < |r| && r[i] == g;
      assert f[i] in f;
    }
    forall x | x in GroupIds(f)
      ensures x in GroupIds(r)
    {
      var g :| g in f && g.id == x;
      var i :| 0 <= i < |f| && f[i] == g;
      assert r[i] in r;
    }
    forall x | x in GroupIds(groups) - dissolved
      ensures x in GroupIds(f)
    {
      var g :| g in groups && g.id == x;
      assert g in f;
    }
  }

  /** The student at position k leaves exactly when `Leaves` says so. */
  lemma LeaversMeaning(cfg: Config, c: Campus, drops: seq<real>)
    requires Valid(cfg, c) && |drops| == |c.roster|
    ensures forall k :: 0 <= k < |c.roster| ==>
              (c.roster[k].id in Leavers(c, drops) <==> Leaves(c, c.roster[k], drops[k]))
  {
    forall k | 0 <= k < |c.roster| && c.roster[k].id in Leavers(c, drops)
      ensures Leaves(c, c.roster[k], drops[k])
    {
      var j :| 0 <= j < |c.roster| && Leaves(c, c.roster[j], drops[j]) && c.roster[j].id == c.roster[k].id;
      assert j == k;
    }
  }

  /** The groups dissolved are exactly those whose draw exceeds 0.75. */
  lemma DissolvedMeaning(cfg: Config, c: Campus, groupDraws: seq<real>)
    requires Valid(cfg, c) && |groupDraws| == |c.groups|
    ensures forall j :: 0 <= j < |c.groups| ==>
              (c.groups[j].id in Dissolved(c, groupDraws) <==> groupDraws[j] > DissolveAbove)
  {
    forall j | 0 <= j < |c.groups| && c.groups[j].id in Dissolved(c, groupDraws)
      ensures groupDraws[j] > DissolveAbove
    {
      var i :| 0 <= i < |c.groups| && groupDraws[i] > DissolveAbove && c.groups[i].id == c.groups[j].id;
      assert i == j;
    }
  }

  // ---------------------------------------------------------------------
  // The invariant is kept

  /** The roster half of the invariant after the May pass. */
  lemma YearEndRosterValid(cfg: Config, c: Campus, drops: seq<real>, groupDraws: seq<real>)
    requires Valid(cfg, c)
    requires |drops| == |c.roster| && |groupDraws| == |c.groups|
    ensures var r := YearEnd(c, drops, groupDraws);
            && UniqueIds(r.roster)
            && (forall k :: 0 <= k < |r.roster| ==> r.roster[k].id < r.nextPersonId)
            && AllShaped(cfg, r.roster)
            && (forall k :: 0 <= k < |r.roster| ==> Sampled(r.roster[k]))
            && r.net.nodes == Ids(r.roster)
            && EdgesRecorded(r)
  {
    YearEndEdgesRecorded(cfg, c, drops, groupDraws);
    var gone := Leavers(c, drops);
    var dissolved := Dissolved(c, groupDraws);
    var f := Remaining(c.roster, gone);
    var r := YearEnd(c, drops, groupDraws);
    RemainingUnique(c.roster, gone);
    RemainingIds(c.roster, gone, dissolved);
    IdsBelow(cfg, c);
    AllShapedMeaning(cfg, c.roster);
    AllShapedMeaning(cfg, r.roster);
    forall k | 0 <= k < |r.roster|
      ensures r.roster[k].id == f[k].id && f[k] in c.roster
      ensures r.roster[k].id < r.nextPersonId && Shaped(cfg, r.roster[k]) && Sampled(r.roster[k])
    {
      assert f[k] in f;
      var j :| 0 <= j < |c.roster| && c.roster[j] == f[k];
    }
  }

  /** Survivors keep their tickle maps and edges only disappear, so every
      remaining edge is still recorded. */
  lemma YearEndEdgesRecorded(cfg: Config, c: Campus, drops: seq<real>, groupDraws: seq<real>)
    requires Valid(cfg, c)
    requires |drops| == |c.roster| && |groupDraws| == |c.groups|
    ensures EdgesRecorded(YearEnd(c, drops, groupDraws))
  {
    var f := Remaining(c.roster, Leavers(c, drops));
    var r := YearEnd(c, drops, groupDraws);
    forall k, b | 0 <= k < |r.roster| && Linked(r.net, r.roster[k].id, b)
      ensures b in r.roster[k].lastTickle
    {
      assert f[k] in f;
      var j :| 0 <= j < |c.roster| && c.roster[j] == f[k];
    }
  }

  /** The group half of the invariant after the May pass. */
  lemma YearEndGroupsValid(cfg: Config, c: Campus, drops: seq<real>, groupDraws: seq<real>)
    requires Valid(cfg, c)
    requires |drops| == |c.roster| && |groupDraws| == |c.groups|
    ensures var r := YearEnd(c, drops, groupDraws);
            && UniqueGroupIds(r.groups)
            && (forall i :: 0 <= i < |r.groups| ==> r.groups[i].id < r.nextGroupId)
  {
    var gone := Leavers(c, drops);
    var dissolved := Dissolved(c, groupDraws);
    var f := Standing(c.groups, dissolved);
    var r := YearEnd(c, drops, groupDraws);
    StandingUnique(c.groups, dissolved);
    IdsBelow(cfg, c);
    forall i | 0 <= i < |r.groups|
      ensures r.groups[i].id < r.nextGroupId
    {
      assert f[i] in f;
    }
  }

  /** Membership stays two-sided: a standing group and a survivor are
      related after the pass exactly when they were before. */
  lemma YearEndMembership(cfg: Config, c: Campus, drops: seq<real>, groupDraws: seq<real>)
    requires Valid(cfg, c)
    requires |drops| == |c.roster| && |groupDraws| == |c.groups|
    ensures MembershipConsistent(YearEnd(c, drops, groupDraws))
  {
    YearEndMembersLive(cfg, c, drops, groupDraws);
    YearEndGroupsLive(cfg, c, drops, groupDraws);
    YearEndMembershipSides(cfg, c, drops, groupDraws);
  }

  lemma YearEndMembersLive(cfg: Config, c: Campus, drops: seq<real>, groupDraws: seq<real>)
    requires Valid(cfg, c)
    requires |drops| == |c.roster| && |groupDraws| == |c.groups|
    ensures var r := YearEnd(c, drops, groupDraws);
            forall i, x :: 0 <= i < |r.groups| && x in r.groups[i].members ==> x in Ids(r.roster)
  {
    var gone := Leavers(c, drops);
    var dissolved := Dissolved(c, groupDraws);
    var h := Standing(c.groups, dissolved);
    var r := YearEnd(c, drops, groupDraws);
    RemainingIds(c.roster, gone, dissolved);
    forall i, x | 0 <= i < |r.groups| && x in r.groups[i].members
      ensures x in Ids(r.roster)
    {
      assert h[i] in h;
      var i0 :| 0 <= i0 < |c.groups| && c.groups[i0] == h[i];
    }
  }

  lemma YearEndGroupsLive(cfg: Config, c: Campus, drops: seq<real>, groupDraws: seq<real>)
    requires Valid(cfg, c)
    requires |drops| == |c.roster| && |groupDraws| == |c.groups|
    ensures var r := YearEnd(c, drops, groupDraws);
            forall k, g :: 0 <= k < |r.roster| && g in r.roster[k].groups ==> g in GroupIds(r.groups)
  {
    var gone := Leavers(c, drops);
    var dissolved := Dissolved(c, groupDraws);
    var f := Remaining(c.roster, gone);
    var r := YearEnd(c, drops, groupDraws);
    StandingIds(c.groups, dissolved, gone);
    forall k, g | 0 <= k < |r.roster| && g in r.roster[k].groups
      ensures g in GroupIds(r.groups)
    {
      assert f[k] in f;
      var k0 :| 0 <= k0 < |c.roster| && c.roster[k0] == f[k];
    }
  }

  lemma YearEndMembershipSides(cfg: Config, c: Campus, drops: seq<real>, groupDraws: seq<real>)
    requires Valid(cfg, c)
    requires |drops| == |c.roster| && |groupDraws| == |c.groups|
    ensures var r := YearEnd(c, drops, groupDraws);
            forall i, k :: 0 <= i < |r.groups| && 0 <= k < |r.roster| ==>
              (r.roster[k].id in r.groups[i].members <==> r.groups[i].id in r.roster[k].groups)
  {
    var gone := Leavers(c, drops);
    var dissolved := Dissolved(c, groupDraws);
    var f := Remaining(c.roster, gone);
    var h := Standing(c.groups, dissolved);
    var r := YearEnd(c, drops, groupDraws);
    forall i, k | 0 <= i < |r.groups| && 0 <= k < |r.roster|
      ensures r.roster[k].id in r.groups[i].members <==> r.groups[i].id in r.roster[k].groups
    {
      assert h[i] in h && f[k] in f;
      var i0 :| 0 <= i0 < |c.groups| && c.groups[i0] == h[i];
      var k0 :| 0 <= k0 < |c.roster| && c.roster[k0] == f[k];
    }
  }

  /** The May pass keeps the campus invariant. */
  lemma YearEndValid(cfg: Config, c: Campus, drops: seq<real>, groupDraws: seq<real>)
    requires Valid(cfg, c)
    requires |drops| == |c.roster| && |groupDraws| == |c.groups|
    ensures Valid(cfg, YearEnd(c, drops, groupDraws))
  {
    YearEndRosterValid(cfg, c, drops, groupDraws);
    YearEndGroupsValid(cfg, c, drops, groupDraws);
    YearEndMembership(cfg, c, drops, groupDraws);
  }

  // ---------------------------------------------------------------------
  // What the pass does to each student and each group

  /** A student stays exactly when not of year 4 or more and the draw is
      above the dropout probability; nobody joins and no id is reused. */
  lemma YearEndStudents(cfg: Config, c: Campus, drops: seq<real>, groupDraws: seq<real>)
    requires Valid(cfg, c)
    requires |drops| == |c.roster| && |groupDraws| == |c.groups|
    ensures var r := YearEnd(c, drops, groupDraws);
            && Ids(r.roster) == Ids(c.roster) - Leavers(c, drops)
            && (forall k :: 0 <= k < |c.roster| ==>
                  (c.roster[k].id in Ids(r.roster) <==> c.roster[k].year < 4 && drops[k] > DropoutChance(c, c.roster[k])))
            && r.nextPersonId == c.nextPersonId
  {
    RemainingIds(c.roster, Leavers(c, drops), Dissolved(c, groupDraws));
    LeaversMeaning(cfg, c, drops);
  }

  /** A student who stays keeps everything (year, attributes, tickle map)
      except the dissolved groups, so every survivor was enrolled before and
      is of year 3 or less. */
  lemma YearEndSurvivors(cfg: Config, c: Campus, drops: seq<real>, groupDraws: seq<real>)
    requires Valid(cfg, c)
    requires |drops| == |c.roster| && |groupDraws| == |c.groups|
    ensures var r := YearEnd(c, drops, groupDraws);
            forall k :: 0 <= k < |r.roster| ==>
              && r.roster[k].id in Ids(c.roster)
              && r.roster[k].year <= 3
              && r.roster[k] == Lookup(c.roster, r.roster[k].id).(groups := Without(Lookup(c.roster, r.roster[k].id).groups, Dissolved(c, groupDraws)))
  {
    var gone := Leavers(c, drops);
    var dissolved := Dissolved(c, groupDraws);
    var f := Remaining(c.roster, gone);
    var r := YearEnd(c, drops, groupDraws);
    forall k | 0 <= k < |r.roster|
      ensures r.roster[k].id in Ids(c.roster) && r.roster[k].year <= 3
      ensures r.roster[k] == Strip(Lookup(c.roster, r.roster[k].id), dissolved)
    {
      assert f[k] in f;
      var j :| 0 <= j < |c.roster| && c.roster[j] == f[k];
      var q := Lookup(c.roster, f[k].id);
      var i :| 0 <= i < |c.roster| && c.roster[i] == q;
      assert i == j;
    }
  }

  /** The May pass clears no tickle entry: a survivor keeps its entry for a
      friend who left, although no edge joins them any more. So an entry does
      not imply an edge, and the campus invariant only asks for the converse. */
  lemma YearEndKeepsTickles(cfg: Config, c: Campus, drops: seq<real>, groupDraws: seq<real>)
    requires Valid(cfg, c)
    requires |drops| == |c.roster| && |groupDraws| == |c.groups|
    ensures var r := YearEnd(c, drops, groupDraws);
            forall k, x :: 0 <= k < |r.roster| && x in Leavers(c, drops) ==>
              && r.roster[k].lastTickle == Lookup(c.roster, r.roster[k].id).lastTickle
              && !Linked(r.net, r.roster[k].id, x)
  {
    YearEndSurvivors(cfg, c, drops, groupDraws);
  }

  /** A group stands exactly when its draw is at most 0.75; a standing group
      keeps its id and loses exactly the students who leave; the group
      counter is not touched. */
  lemma YearEndGroups(cfg: Config, c: Campus, drops: seq<real>, groupDraws: seq<real>)
    requires Valid(cfg, c)
    requires |drops| == |c.roster| && |groupDraws| == |c.groups|
    ensures var r := YearEnd(c, drops, groupDraws);
            && (forall j :: 0 <= j < |c.groups| ==>
                  (c.groups[j].id in GroupIds(r.groups) <==> groupDraws[j] <= DissolveAbove))
            && (forall i :: 0 <= i < |r.groups| ==>
                  && r.groups[i].id in GroupIds(c.groups)
                  && (forall x :: x in r.groups[i].members <==>
                        x in FindGroup(c.groups, r.groups[i].id).members && x !in Leavers(c, drops)))
            && r.nextGroupId == c.nextGroupId
  {
    var gone := Leavers(c, drops);
    var dissolved := Dissolved(c, groupDraws);
    var h := Standing(c.groups, dissolved);
    var r := YearEnd(c, drops, groupDraws);
    StandingIds(c.groups, dissolved, gone);
    DissolvedMeaning(cfg, c, groupDraws);
    forall i | 0 <= i < |r.groups|
      ensures r.groups[i].id in GroupIds(c.groups)
      ensures r.groups[i] == Prune(FindGroup(c.groups, r.groups[i].id), gone)
    {
      assert h[i] in h;
      var j :| 0 <= j < |c.groups| && c.groups[j] == h[i];
      var g := FindGroup(c.groups, h[i].id);
      var j2 :| 0 <= j2 < |c.groups| && c.groups[j2] == g;
      assert j2 == j;
    }
  }
}

=== FILE: enrolment.dfy ===
/**
 How students and groups enter the simulation (Sim.java): the initial
 population of `start()` and the August pass of `step()`, which ages every
 student by a year, enrols a freshman class and founds new groups.
 */
module Enrolment {
  import opened Graph
  import opened People
  import opened CampusState

  /** A Java `for (i = 0; i < n; i++)` loop runs this many times. */
  function Times(n: int): nat
  {
    if n < 0 then 0 else n
  }

  /** Students created in a row by `new Person()`: the i-th takes the id
      counter plus i, is given the year `years[i]` by `setYear`, and is
      sampled from `draws[i]`. */
  function Newcomers(cfg: Config, firstId: int, years: seq<int>, draws: seq<Draws>): (r: seq<Person>)
    requires |years| == |draws|
    requires forall i :: 0 <= i < |draws| ==> DrawsFit(cfg, draws[i])
    ensures |r| == |draws|
    ensures forall i :: 0 <= i < |r| ==>
              r[i].id == firstId + i && r[i].year == years[i] && r[i].groups == [] && r[i].lastTickle == map[]
    ensures forall i :: 0 <= i < |r| ==> Shaped(cfg, r[i]) && Sampled(r[i])
  {
    seq(|draws|, i requires 0 <= i < |draws| => NewPerson(cfg, firstId + i, years[i], draws[i]))
  }

  /** Groups created in a row by `new Group()`: empty, with consecutive ids. */
  function NewGroups(firstId: int, n: nat): (r: seq<Group>)
    ensures |r| == n
    ensures forall j :: 0 <= j < n ==> r[j].id == firstId + j && r[j].members == []
  {
    seq(n, j requires 0 <= j < n => Group(firstId + j, []))
  }

  /** The ids of a block of students. */
  lemma NewcomerIds(cfg: Config, firstId: int, years: seq<int>, draws: seq<Draws>)
    requires |years| == |draws|
    requires forall i :: 0 <= i < |draws| ==> DrawsFit(cfg, draws[i])
    ensures forall x :: x in Ids(Newcomers(cfg, firstId, years, draws)) <==> firstId <= x < firstId + |draws|
  {
    var r := Newcomers(cfg, firstId, years, draws);
    forall x | firstId <= x < firstId + |draws|
      ensures x in Ids(r)
    {
      assert r[x - firstId] in r;
    }
  }

  /** Appending students with fresh ids to a valid campus, as nodes without
      edges, and appending empty groups with fresh ids keeps it valid. */
  lemma AppendKeepsValid(cfg: Config, c: Campus, born: seq<Person>, founded: seq<Group>)
    requires Valid(cfg, c)
    requires forall i :: 0 <= i < |born| ==> c.nextPersonId + i == born[i].id
    requires forall i :: 0 <= i < |born| ==> born[i].groups == [] && born[i].lastTickle == map[]
    requires forall i :: 0 <= i < |born| ==> Shaped(cfg, born[i]) && Sampled(born[i])
    requires forall j :: 0 <= j < |founded| ==> founded[j].id == c.nextGroupId + j && founded[j].members == []
    ensures Valid(cfg, Campus(c.roster + born, AddNodes(c.net, Ids(born)), c.groups + founded,
                              c.nextPersonId + |born|, c.nextGroupId + |founded|))
  {
    var r := Campus(c.roster + born, AddNodes(c.net, Ids(born)), c.groups + founded,
                    c.nextPersonId + |born|, c.nextGroupId + |founded|);
    IdsConcat(c.roster, born);
    GroupIdsConcat(c.groups, founded);
    IdsBelow(cfg, c);
    AllShapedMeaning(cfg, c.roster);
    AllShapedMeaning(cfg, r.roster);
    AppendEdgesRecorded(cfg, c, r, born);
    AppendMembership(cfg, c, r, born, founded);
  }

  lemma AppendEdgesRecorded(cfg: Config, c: Campus, r: Campus, born: seq<Person>)
    requires Valid(cfg, c) && r.roster == c.roster + born && r.net == AddNodes(c.net, Ids(born))
    requires forall i :: 0 <= i < |born| ==> c.nextPersonId <= born[i].id
    ensures EdgesRecorded(r)
  {
    IdsBelow(cfg, c);
    forall k, b | 0 <= k < |r.roster| && Linked(r.net, r.roster[k].id, b)
      ensures b in r.roster[k].lastTickle
    {
      LinkedFacts(c.net, r.roster[k].id, b);
      assert k < |c.roster|;
      assert c.roster[k] == r.roster[k];
    }
  }

  lemma AppendMembership(cfg: Config, c: Campus, r: Campus, born: seq<Person>, founded: seq<Group>)
    requires Valid(cfg, c) && r.roster == c.roster + born && r.groups == c.groups + founded
    requires forall i :: 0 <= i < |born| ==> c.nextPersonId <= born[i].id && born[i].groups == []
    requires forall j :: 0 <= j < |founded| ==> c.nextGroupId <= founded[j].id && founded[j].members == []
    requires Ids(r.roster) == Ids(c.roster) + Ids(born)
    requires GroupIds(r.groups) == GroupIds(c.groups) + GroupIds(founded)
    ensures MembershipConsistent(r)
  {
    IdsBelow(cfg, c);
    forall i, k | 0 <= i < |r.groups| && 0 <= k < |r.roster|
      ensures r.roster[k].id in r.groups[i].members <==> r.groups[i].id in r.roster[k].groups
    {
      if i < |c.groups| && k < |c.roster| {
        assert r.groups[i] == c.groups[i] && r.roster[k] == c.roster[k];
      } else if i < |c.groups| {
        assert r.groups[i] == c.groups[i] && r.roster[k] == born[k - |c.roster|];
        assert r.roster[k].id !in c.groups[i].members by {
          forall x | x in c.groups[i].members
            ensures x < c.nextPersonId
          {
            assert x in Ids(c.roster);
          }
        }
      } else if k < |c.roster| {
        assert r.groups[i] == founded[i - |c.groups|] && r.roster[k] == c.roster[k];
        assert r.groups[i].id !in c.roster[k].groups by {
          forall g | g in c.roster[k].groups
            ensures g < c.nextGroupId
          {
            assert g in GroupIds(c.groups);
          }
        }
      } else {
        assert r.groups[i] == founded[i - |c.groups|] && r.roster[k] == born[k - |c.roster|];
      }
    }
    forall i, x | 0 <= i < |r.groups| && x in r.groups[i].members
      ensures x in Ids(r.roster)
    {
      assert r.groups[i] == c.groups[i];
    }
    forall k, g | 0 <= k < |r.roster| && g in r.roster[k].groups
      ensures g in GroupIds(r.groups)
    {
      assert r.roster[k] == c.roster[k];
    }
  }

  /** `start()`: `initNumPeople` students, each of year `years[i] + 1` where
      `years[i]` is the `nextInt(4)` draw, as nodes of a network without
      edges, and `initNumGroups` empty groups. Ids count from 0. */
  function Start(cfg: Config, years: seq<int>, draws: seq<Draws>): (c: Campus)
    requires |years| == |draws| == Times(cfg.initNumPeople)
    requires forall i :: 0 <= i < |years| ==> 0 <= years[i] < 4
    requires forall i :: 0 <= i < |draws| ==> DrawsFit(cfg, draws[i])
    ensures |c.roster| == Times(cfg.initNumPeople) && |c.groups| == Times(cfg.initNumGroups)
    ensures forall k :: 0 <= k < |c.roster| ==>
              c.roster[k].id == k && 1 <= c.roster[k].year <= 4 && c.roster[k].lastTickle == map[]
    ensures c.net.nodes == Ids(c.roster) && c.net.edges == {}
    ensures forall j :: 0 <= j < |c.groups| ==> c.groups[j].members == []
  {
    var born := Newcomers(cfg, 0, StartYears(years), draws);
    Campus(born, AddNodes(Network({}, {}), Ids(born)), NewGroups(0, Times(cfg.initNumGroups)),
           |born|, Times(cfg.initNumGroups))
  }

  /** `setYear(random.nextInt(4) + 1)` for each initial student. */
  function StartYears(years: seq<int>): (r: seq<int>)
    ensures |r| == |years| && forall i :: 0 <= i < |years| ==> r[i] == years[i] + 1
  {
    seq(|years|, i requires 0 <= i < |years| => years[i] + 1)
  }

  /** The campus invariant holds from the start (given a similarity score
      with a non-zero denominator). */
  lemma StartValid(cfg: Config, years: seq<int>, draws: seq<Draws>)
    requires |years| == |draws| == Times(cfg.initNumPeople)
    requires forall i :: 0 <= i < |years| ==> 0 <= years[i] < 4
    requires forall i :: 0 <= i < |draws| ==> DrawsFit(cfg, draws[i])
    requires MaxRating(cfg) != 0.0
    ensures Valid(cfg, Start(cfg, years, draws))
  {
    var empty := Campus([], Network({}, {}), [], 0, 0);
    var born := Newcomers(cfg, 0, StartYears(years), draws);
    var founded := NewGroups(0, Times(cfg.initNumGroups));
    AppendKeepsValid(cfg, empty, born, founded);
    assert [] + born == born && [] + founded == founded;
  }

  /** `incrementYear()`: the year counter goes up by one, possibly past 4. */
  function Aged(p: Person): (q: Person)
    ensures q.year == p.year + 1
    ensures q.(year := p.year) == p
  {
    p.(year := p.year + 1)
  }

  /** The August pass of `step()`: every student is a year older, the
      freshman class (year 1, sampled from `freshmen`) joins the roster and the
      network, and `numNewGroups` empty groups are founded. */
  function YearStart(cfg: Config, c: Campus, freshmen: seq<Draws>): (r: Campus)
    requires |freshmen| == Times(cfg.numFreshmen)
    requires forall i :: 0 <= i < |freshmen| ==> DrawsFit(cfg, freshmen[i])
  {
    var aged := seq(|c.roster|, k requires 0 <= k < |c.roster| => Aged(c.roster[k]));
    var born := Newcomers(cfg, c.nextPersonId, seq(|freshmen|, i => 1), freshmen);
    var founded := NewGroups(c.nextGroupId, Times(cfg.numNewGroups));
    Campus(aged + born, AddNodes(c.net, Ids(born)), c.groups + founded,
           c.nextPersonId + |born|, c.nextGroupId + |founded|)
  }

  /** What the August pass promises: each student already enrolled is one
      year older and otherwise unchanged; exactly the freshman class is
      added, all of year 1 with fresh ids, to the roster and as isolated
      nodes to the network; exactly `numNewGroups` empty groups are added
      after the existing ones; and the campus invariant is kept. */
  lemma YearStartMeaning(cfg: Config, c: Campus, freshmen: seq<Draws>)
    requires Valid(cfg, c)
    requires |freshmen| == Times(cfg.numFreshmen)
    requires forall i :: 0 <= i < |freshmen| ==> DrawsFit(cfg, freshmen[i])
    ensures var r := YearStart(cfg, c, freshmen);
            && |r.roster| == |c.roster| + Times(cfg.numFreshmen)
            && (forall k :: 0 <= k < |c.roster| ==> r.roster[k] == c.roster[k].(year := c.roster[k].year + 1))
            && (forall k :: |c.roster| <= k < |r.roster| ==>
                  r.roster[k].year == 1 && r.roster[k].id !in Ids(c.roster) &&
                  r.roster[k].groups == [] && r.roster[k].lastTickle == map[])
            && r.net.nodes == Ids(r.roster) && r.net.edges == c.net.edges
            && |r.groups| == |c.groups| + Times(cfg.numNewGroups)
            && r.groups[..|c.groups|] == c.groups
            && (forall j :: |c.groups| <= j < |r.groups| ==> r.groups[j].members == [] && r.groups[j].id !in GroupIds(c.groups))
            && Valid(cfg, r)
  {
    var r := YearStart(cfg, c, freshmen);
    var aged := r.roster[..|c.roster|];
    var born := r.roster[|c.roster|..];
    var founded := r.groups[|c.groups|..];
    assert r.roster == aged + born;
    assert r.groups == c.groups + founded;
    AgedKeepsValid(cfg, c, aged);
    IdsBelow(cfg, c);
    AppendKeepsValid(cfg, c.(roster := aged), born, founded);
    IdsConcat(aged, born);
  }

  /** Ageing every student keeps the invariant: only years change. */
  lemma AgedKeepsValid(cfg: Config, c: Campus, aged: seq<Person>)
    requires Valid(cfg, c)
    requires |aged| == |c.roster|
    requires forall k :: 0 <= k < |c.roster| ==> aged[k] == Aged(c.roster[k])
    ensures Valid(cfg, c.(roster := aged))
  {
    IdsPointwise(c.roster, aged);
    AllShapedMeaning(cfg, c.roster);
    AllShapedMeaning(cfg, aged);
  }
}

=== FILE: friendship.dfy ===
/**
 Friendship bookkeeping of Person.java: tickling an existing friendship,
 meeting a stranger (and possibly befriending them), and the encounter
 loop that draws peers from a pool. The schedule time `now` and every random
 outcome are parameters.
 */
module Friendship {
  import opened Graph
  import opened People
  import opened CampusState

  /** `tickle(b)` run by student `a`: both students record `now` as the time
      they last met; nothing else changes. */
  function Tickle(c: Campus, a: int, b: int, now: real): (r: Campus)
    ensures r.net == c.net
    ensures SameExceptTickles(c, r)
    ensures forall k :: 0 <= k < |c.roster| ==>
              r.roster[k].lastTickle ==
                if c.roster[k].id == a then c.roster[k].lastTickle[b := now]
                else if c.roster[k].id == b then c.roster[k].lastTickle[a := now]
                else c.roster[k].lastTickle
  {
    c.(roster := Refresh(Refresh(c.roster, a, b, now), b, a, now))
  }

  /** A tickle keeps the campus invariant: it only adds tickle entries. */
  lemma TickleKeepsValid(cfg: Config, c: Campus, a: int, b: int, now: real)
    requires Valid(cfg, c)
    ensures Valid(cfg, Tickle(c, a, b, now))
  {
    var r := Tickle(c, a, b, now);
    assert EdgesRecorded(r) by {
      forall k, x | 0 <= k < |r.roster| && Linked(r.net, r.roster[k].id, x)
        ensures x in r.roster[k].lastTickle
      {
        assert x in c.roster[k].lastTickle;
      }
    }
    SameExceptTicklesValid(cfg, c, r);
  }

  /** `makeFriends(b)` run by student `a`: an edge joins them and both record
      `now` as the time they last met. */
  function MakeFriends(c: Campus, a: int, b: int, now: real): (r: Campus)
    requires a != b && a in c.net.nodes && b in c.net.nodes
    ensures r.net.nodes == c.net.nodes
    ensures Linked(r.net, a, b)
    ensures forall x, y :: Linked(r.net, x, y) <==> Linked(c.net, x, y) || Pair(x, y) == Pair(a, b)
    ensures r.roster == Tickle(c, a, b, now).roster
    ensures SameExceptTickles(c, r)
  {
    Tickle(c, a, b, now).(net := AddEdge(c.net, a, b))
  }

  lemma MakeFriendsKeepsValid(cfg: Config, c: Campus, a: int, b: int, now: real)
    requires Valid(cfg, c) && a != b && a in c.net.nodes && b in c.net.nodes
    ensures Valid(cfg, MakeFriends(c, a, b, now))
  {
    var r := MakeFriends(c, a, b, now);
    assert EdgesRecorded(r) by {
      forall k, x | 0 <= k < |r.roster| && Linked(r.net, r.roster[k].id, x)
        ensures x in r.roster[k].lastTickle
      {
        var y := r.roster[k].id;
        if Pair(y, x) == Pair(a, b) {
          PairFacts(y, x, a, b);
        } else {
          assert x in c.roster[k].lastTickle;
        }
      }
    }
    SameExceptTicklesValid(cfg, c, r);
  }

  /** The similarity score of two students of the roster. */
  function PairSimilarity(cfg: Config, c: Campus, a: int, b: int): real
    requires Ready(cfg, c) && a in Ids(c.roster) && b in Ids(c.roster)
  {
    AllShapedMeaning(cfg, c.roster);
    Similarity(cfg, Lookup(c.roster, a), Lookup(c.roster, b))
  }

  /** `meet(peer)` run by student `me`, who is not yet friends with `peer`:
      they become friends iff `becomeFriends` accepts the draw at their
      similarity; otherwise nothing changes. */
  function Meet(cfg: Config, c: Campus, me: int, peer: int, now: real, draw: real): (res: (Campus, bool))
    requires Ready(cfg, c) && me in Ids(c.roster) && peer in Ids(c.roster) && me != peer
    ensures res.1 <==> BecomeFriends(cfg, PairSimilarity(cfg, c, me, peer), draw)
    ensures res.1 ==> res.0 == MakeFriends(c, me, peer, now)
    ensures !res.1 ==> res.0 == c
    ensures Ready(cfg, res.0) && SameExceptTickles(c, res.0)
  {
    var friends := BecomeFriends(cfg, PairSimilarity(cfg, c, me, peer), draw);
    if friends then
      SameExceptTicklesReady(cfg, c, MakeFriends(c, me, peer, now));
      (MakeFriends(c, me, peer, now), true)
    else (c, false)
  }

  /** What one encounter did: a tickle of an existing friend, or a meeting
      with a stranger and whether it made them friends. */
  datatype Outcome = Tickled(peer: int) | Met(peer: int, friends: bool)

  /** The peers of the encounters in `t`, in order. */
  function Peers(t: seq<Outcome>): (r: seq<int>)
    ensures |r| == |t|
  {
    seq(|t|, i requires 0 <= i < |t| => t[i].peer)
  }

  lemma PeersSnoc(t: seq<Outcome>, o: Outcome)
    ensures Peers(t + [o]) == Peers(t) + [o.peer]
  {
  }

  /** The number of meetings in `t`; each consumed one draw. */
  function Mets(t: seq<Outcome>): (m: nat)
    ensures m <= |t|
  {
    if |t| == 0 then 0
    else Mets(t[..|t| - 1]) + (if t[|t| - 1].Met? then 1 else 0)
  }

  /** The peers picked by `picks`, in order, skipping every pick of `me`
      (the resampling `do ... while` of `encounter`). */
  function Chosen(pool: seq<int>, me: int, picks: seq<int>): (r: seq<int>)
    requires forall i :: 0 <= i < |picks| ==> 0 <= picks[i] < |pool|
    ensures |r| <= |picks|
    ensures forall i :: 0 <= i < |r| ==> r[i] != me && r[i] in pool
  {
    if |picks| == 0 then []
    else if pool[picks[0]] == me then Chosen(pool, me, picks[1..])
    else [pool[picks[0]]] + Chosen(pool, me, picks[1..])
  }

  /** Picking is compositional: the peers of two runs of picks are the peers
      of the first run followed by those of the second. */
  lemma {:induction false} ChosenConcat(pool: seq<int>, me: int, a: seq<int>, b: seq<int>)
    requires forall i :: 0 <= i < |a| ==> 0 <= a[i] < |pool|
    requires forall i :: 0 <= i < |b| ==> 0 <= b[i] < |pool|
    ensures Chosen(pool, me, a + b) == Chosen(pool, me, a) + Chosen(pool, me, b)
  {
    if |a| == 0 {
      assert a + b == b;
    } else {
      assert (a + b)[1..] == a[1..] + b;
      ChosenConcat(pool, me, a[1..], b);
    }
  }

  lemma AllPicks(picks: seq<int>)
    ensures picks[..|picks|] == picks
  {
  }

  /** One more pick adds its peer unless it is `me`. */
  lemma ChosenStep(pool: seq<int>, me: int, picks: seq<int>, k: nat)
    requires forall i :: 0 <= i < |picks| ==> 0 <= picks[i] < |pool|
    requires k < |picks|
    ensures Chosen(pool, me, picks[..k + 1]) ==
            Chosen(pool, me, picks[..k]) + (if pool[picks[k]] == me then [] else [pool[picks[k]]])
  {
    assert picks[..k + 1] == picks[..k] + [picks[k]];
    ChosenConcat(pool, me, picks[..k], [picks[k]]);
    assert [picks[k]][1..] == [];
  }

  /** One pass of the loop body of `encounter` with the chosen peer `p`:
      tickle `p` if already a friend, otherwise meet `p`, which consumes one
      draw. Returns the new campus, the outcome and the unused draws. */
  function EncounterOne(cfg: Config, c: Campus, me: int, p: int, draws: seq<real>, now: real)
    : (res: (Campus, Outcome, seq<real>))
    requires Ready(cfg, c) && me in Ids(c.roster) && p in Ids(c.roster) && p != me
    requires Linked(c.net, me, p) || |draws| > 0
    ensures res.1.peer == p
    ensures res.1.Tickled? <==> Linked(c.net, me, p)
    ensures res.1.Tickled? ==> res.0 == Tickle(c, me, p, now) && res.2 == draws
    ensures res.1.Met? ==> res.0 == Meet(cfg, c, me, p, now, draws[0]).0
                           && res.1.friends == Meet(cfg, c, me, p, now, draws[0]).1
                           && res.2 == draws[1..]
    ensures Ready(cfg, res.0) && SameExceptTickles(c, res.0) && Ids(res.0.roster) == Ids(c.roster)
  {
    if Linked(c.net, me, p) then
      var c1 := Tickle(c, me, p, now);
      SameExceptTicklesReady(cfg, c, c1);
      (c1, Tickled(p), draws)
    else
      var m := Meet(cfg, c, me, p, now, draws[0]);
      SameExceptTicklesIds(c, m.0);
      (m.0, Met(p, m.1), draws[1..])
  }

  /** A meeting that kept the invariant leaves it kept. */
  lemma MeetKeepsValid(cfg: Config, c: Campus, me: int, peer: int, now: real, draw: real)
    requires Valid(cfg, c) && me in Ids(c.roster) && peer in Ids(c.roster) && me != peer
    ensures Valid(cfg, Meet(cfg, c, me, peer, now, draw).0)
  {
    if Meet(cfg, c, me, peer, now, draw).1 {
      MakeFriendsKeepsValid(cfg, c, me, peer, now);
    }
  }

  lemma EncounterOneKeepsValid(cfg: Config, c: Campus, me: int, p: int, draws: seq<real>, now: real)
    requires Valid(cfg, c) && me in Ids(c.roster) && p in Ids(c.roster) && p != me
    requires Linked(c.net, me, p) || |draws| > 0
    ensures Valid(cfg, EncounterOne(cfg, c, me, p, draws, now).0)
  {
    if Linked(c.net, me, p) {
      TickleKeepsValid(cfg, c, me, p, now);
    } else {
      MeetKeepsValid(cfg, c, me, p, now, draws[0]);
    }
  }

  /** The encounters in `t` refreshed the pair of `me` and `q`: a tickle,
      or a meeting that made them friends. */
  predicate Touched(t: seq<Outcome>, q: int)
  {
    Tickled(q) in t || Met(q, true) in t
  }

  /** Student `x`'s entry for `q` is refreshed by the encounters in `t` run
      by `me`. */
  predicate Stamped(me: int, t: seq<Outcome>, x: int, q: int)
  {
    (x == me && Touched(t, q)) || (q == me && Touched(t, x))
  }

  /** The tickle map `after` of student `x` is `before` with exactly the
      entries stamped by `t` set to `now`. */
  ghost predicate StampedMap(before: map<int, real>, after: map<int, real>, x: int, me: int, t: seq<Outcome>, now: real)
  {
    forall q ::
      if Stamped(me, t, x, q) then q in after && after[q] == now
      else (q in after <==> q in before) && (q in before ==> after[q] == before[q])
  }

  /** Every student's tickle map changed exactly by the stamps of `t`. */
  ghost predicate StampedExactly(before: seq<Person>, after: seq<Person>, me: int, t: seq<Outcome>, now: real)
  {
    && |after| == |before|
    && forall k :: 0 <= k < |before| ==>
         StampedMap(before[k].lastTickle, after[k].lastTickle, before[k].id, me, t, now)
  }

  /** The only new edges are between `me` and the strangers the encounters
      in `t` befriended; no edge disappears. */
  ghost predicate EdgesAfter(before: Network, after: Network, me: int, t: seq<Outcome>)
  {
    forall x, y :: Linked(after, x, y) <==>
      Linked(before, x, y) || (x == me && Met(y, true) in t) || (y == me && Met(x, true) in t)
  }

  /** Each encounter tickles exactly the peers that are friends at that
      point: friends from before, or strangers befriended earlier in `t`. */
  ghost predicate TickledIffFriend(before: Network, me: int, t: seq<Outcome>)
  {
    forall i :: 0 <= i < |t| ==>
      (t[i].Tickled? <==> Linked(before, me, t[i].peer) || Met(t[i].peer, true) in t[..i])
  }

  /** A tickle of `p`, or a meeting that befriends `p`, stamps exactly the
      pair of `me` and `p`. */
  lemma TickleStamps(c: Campus, me: int, p: int, now: real, o: Outcome)
    requires p != me && o.peer == p && (o.Tickled? || o.friends)
    ensures StampedExactly(c.roster, Tickle(c, me, p, now).roster, me, [o], now)
  {
    var r := Tickle(c, me, p, now).roster;
    assert forall q :: Touched([o], q) <==> q == p;
    forall k | 0 <= k < |c.roster|
      ensures StampedMap(c.roster[k].lastTickle, r[k].lastTickle, c.roster[k].id, me, [o], now)
    {
    }
  }

  lemma EncounterOneStamps(cfg: Config, c: Campus, me: int, p: int, draws: seq<real>, now: real,
                           s: (Campus, Outcome, seq<real>))
    requires Ready(cfg, c) && me in Ids(c.roster) && p in Ids(c.roster) && p != me
    requires Linked(c.net, me, p) || |draws| > 0
    requires s == EncounterOne(cfg, c, me, p, draws, now)
    ensures StampedExactly(c.roster, s.0.roster, me, [s.1], now)
  {
    if s.1 == Met(p, false) {
      assert s.0 == c;
      assert forall q :: !Touched([s.1], q);
    } else {
      TickleStamps(c, me, p, now, s.1);
    }
  }

  lemma EncounterOneEdges(cfg: Config, c: Campus, me: int, p: int, draws: seq<real>, now: real,
                          s: (Campus, Outcome, seq<real>))
    requires Ready(cfg, c) && me in Ids(c.roster) && p in Ids(c.roster) && p != me
    requires Linked(c.net, me, p) || |draws| > 0
    requires s == EncounterOne(cfg, c, me, p, draws, now)
    ensures EdgesAfter(c.net, s.0.net, me, [s.1])
  {
    if s.1 == Met(p, true) {
      assert s.0 == MakeFriends(c, me, p, now);
      forall x, y
        ensures Linked(s.0.net, x, y) <==> Linked(c.net, x, y) || (x == me && y == p) || (y == me && x == p)
      {
        PairFacts(x, y, me, p);
      }
    } else {
      assert s.0.net == c.net;
    }
  }

  /** Every encounter in `t` was with a student of `ids` other than `me`. */
  predicate PeersWithin(t: seq<Outcome>, ids: set<int>, me: int)
  {
    forall i :: 0 <= i < |t| ==> t[i].peer in ids && t[i].peer != me
  }

  lemma PeersWithinSnoc(t: seq<Outcome>, o: Outcome, ids: set<int>, me: int)
    requires PeersWithin(t, ids, me) && o.peer in ids && o.peer != me
    ensures PeersWithin(t + [o], ids, me)
  {
  }

  /** Each meeting in `t` was decided by `becomeFriends` on its own draw:
      the j-th meeting used the j-th draw, at the similarity of the pair. */
  ghost predicate DrawsDecide(cfg: Config, c: Campus, me: int, t: seq<Outcome>, draws: seq<real>)
    requires Ready(cfg, c) && me in Ids(c.roster)
    requires PeersWithin(t, Ids(c.roster), me)
  {
    forall i :: 0 <= i < |t| && t[i].Met? ==>
      Mets(t[..i]) < |draws| &&
      (t[i].friends <==> BecomeFriends(cfg, PairSimilarity(cfg, c, me, t[i].peer), draws[Mets(t[..i])]))
  }

  lemma StampedSnoc(c: seq<Person>, m: seq<Person>, r: seq<Person>, me: int, t: seq<Outcome>, o: Outcome, now: real)
    requires StampedExactly(c, m, me, t, now) && StampedExactly(m, r, me, [o], now)
    requires SameIds(c, m)
    ensures StampedExactly(c, r, me, t + [o], now)
  {
    forall k | 0 <= k < |c|
      ensures StampedMap(c[k].lastTickle, r[k].lastTickle, c[k].id, me, t + [o], now)
    {
      assert StampedMap(c[k].lastTickle, m[k].lastTickle, c[k].id, me, t, now);
      assert StampedMap(m[k].lastTickle, r[k].lastTickle, c[k].id, me, [o], now);
      forall q
        ensures Touched(t + [o], q) <==> Touched(t, q) || Touched([o], q)
      {
      }
    }
  }

  lemma EdgesSnoc(n0: Network, n1: Network, n2: Network, me: int, t: seq<Outcome>, o: Outcome)
    requires EdgesAfter(n0, n1, me, t) && EdgesAfter(n1, n2, me, [o])
    ensures EdgesAfter(n0, n2, me, t + [o])
  {
    forall x, y
      ensures Linked(n2, x, y) <==>
              Linked(n0, x, y) || (x == me && Met(y, true) in t + [o]) || (y == me && Met(x, true) in t + [o])
    {
      assert Met(y, true) in t + [o] <==> Met(y, true) in t || Met(y, true) == o;
      assert Met(x, true) in t + [o] <==> Met(x, true) in t || Met(x, true) == o;
    }
  }

  lemma TickledSnoc(n0: Network, n1: Network, me: int, t: seq<Outcome>, o: Outcome)
    requires TickledIffFriend(n0, me, t) && EdgesAfter(n0, n1, me, t)
    requires o.peer != me && (o.Tickled? <==> Linked(n1, me, o.peer))
    ensures TickledIffFriend(n0, me, t + [o])
  {
    var u := t + [o];
    forall i | 0 <= i < |u|
      ensures u[i].Tickled? <==> Linked(n0, me, u[i].peer) || Met(u[i].peer, true) in u[..i]
    {
      if i < |t| {
        assert u[i] == t[i] && u[..i] == t[..i];
      } else {
        assert u[i] == o && u[..i] == t;
      }
    }
  }

  lemma MetsSnoc(t: seq<Outcome>, o: Outcome)
    ensures Mets(t + [o]) == Mets(t) + (if o.Met? then 1 else 0)
  {
    assert (t + [o])[..|t|] == t;
  }

  /** The students' similarity does not depend on tickle maps. */
  lemma PairSimilarityFrame(cfg: Config, c: Campus, r: Campus, a: int, b: int)
    requires Ready(cfg, c) && Ready(cfg, r) && SameExceptTickles(c, r)
    requires a in Ids(c.roster) && b in Ids(c.roster)
    ensures a in Ids(r.roster) && b in Ids(r.roster)
    ensures PairSimilarity(cfg, r, a, b) == PairSimilarity(cfg, c, a, b)
  {
    SameExceptTicklesIds(c, r);
    SameExceptTicklesSameIds(c, r);
    IndexOfSameIds(c.roster, r.roster, a);
    IndexOfSameIds(c.roster, r.roster, b);
    AllShapedMeaning(cfg, c.roster);
    AllShapedMeaning(cfg, r.roster);
    var x, y := Lookup(c.roster, a), Lookup(c.roster, b);
    var x', y' := Lookup(r.roster, a), Lookup(r.roster, b);
    assert SameButTickles(x, x') && SameButTickles(y, y');
    SimilarityIgnoresTickles(cfg, x, y, x', y');
  }

  lemma SimilarityIgnoresTickles(cfg: Config, x: Person, y: Person, x': Person, y': Person)
    requires Shaped(cfg, x) && Shaped(cfg, y) && MaxRating(cfg) != 0.0
    requires SameButTickles(x, x') && SameButTickles(y, y')
    ensures Shaped(cfg, x') && Shaped(cfg, y')
    ensures Similarity(cfg, x', y') == Similarity(cfg, x, y)
  {
  }

  lemma DrawsSnoc(cfg: Config, c: Campus, r: Campus, me: int, t: seq<Outcome>, draws: seq<real>,
                  s: (Campus, Outcome, seq<real>), now: real)
    requires Ready(cfg, c) && Ready(cfg, r) && SameExceptTickles(c, r) && me in Ids(c.roster)
    requires PeersWithin(t, Ids(c.roster), me) && PeersWithin(t + [s.1], Ids(c.roster), me)
    requires DrawsDecide(cfg, c, me, t, draws) && Mets(t) <= |draws|
    requires s.1.peer in Ids(c.roster) && s.1.peer != me && me in Ids(r.roster) && s.1.peer in Ids(r.roster)
    requires Linked(r.net, me, s.1.peer) || Mets(t) < |draws|
    requires s == EncounterOne(cfg, r, me, s.1.peer, draws[Mets(t)..], now)
    ensures DrawsDecide(cfg, c, me, t + [s.1], draws)
  {
    var u := t + [s.1];
    forall i | 0 <= i < |u| && u[i].Met?
      ensures Mets(u[..i]) < |draws|
      ensures u[i].friends <==> BecomeFriends(cfg, PairSimilarity(cfg, c, me, u[i].peer), draws[Mets(u[..i])])
    {
      if i < |t| {
        assert u[i] == t[i] && u[..i] == t[..i];
      } else {
        assert u[i] == s.1 && u[..i] == t;
        PairSimilarityFrame(cfg, c, r, me, s.1.peer);
      }
    }
  }

  /** `encounter(number, pool)`: the count is clamped to the pool size (a
      negative count runs no encounter). */
  function EncounterCount(number: int, poolSize: nat): (n: nat)
    ensures n <= poolSize
    ensures number >= 0 ==> n <= number
    ensures number < 0 ==> n == 0
    ensures n == poolSize || n == number || (number < 0 && n == 0)
  {
    if poolSize < number then poolSize
    else if number < 0 then 0
    else number
  }

  /** What holds after the encounter loop has consumed `used` picks, with
      campus `r` and trace `trace`; `stalled` records that the draws ran out
      at a stranger. */
  ghost predicate EncounterInv(cfg: Config, c: Campus, me: int, pool: seq<int>, picks: seq<int>,
                               draws: seq<real>, now: real, n: nat,
                               r: Campus, trace: seq<Outcome>, used: nat, stalled: bool)
  {
    && Valid(cfg, c) && me in Ids(c.roster)
    && (forall i :: 0 <= i < |pool| ==> pool[i] in Ids(c.roster))
    && (forall i :: 0 <= i < |picks| ==> 0 <= picks[i] < |pool|)
    && used <= |picks| && |trace| <= n
    && Valid(cfg, r) && SameExceptTickles(c, r) && Ids(r.roster) == Ids(c.roster)
    && Peers(trace) == Chosen(pool, me, picks[..used])
    && PeersWithin(trace, Ids(c.roster), me)
    && Mets(trace) <= |draws| && DrawsDecide(cfg, c, me, trace, draws)
    && (stalled ==> Mets(trace) == |draws|)
    && TickledIffFriend(c.net, me, trace)
    && EdgesAfter(c.net, r.net, me, trace)
    && StampedExactly(c.roster, r.roster, me, trace, now)
  }

  lemma EncounterInit(cfg: Config, c: Campus, me: int, pool: seq<int>, picks: seq<int>,
                      draws: seq<real>, now: real, n: nat)
    requires Valid(cfg, c) && me in Ids(c.roster)
    requires forall i :: 0 <= i < |pool| ==> pool[i] in Ids(c.roster)
    requires forall i :: 0 <= i < |picks| ==> 0 <= picks[i] < |pool|
    ensures EncounterInv(cfg, c, me, pool, picks, draws, now, n, c, [], 0, false)
  {
    forall k | 0 <= k < |c.roster|
      ensures StampedMap(c.roster[k].lastTickle, c.roster[k].lastTickle, c.roster[k].id, me, [], now)
    {
    }
    assert picks[..0] == [];
  }

  /** A pick of `me` is skipped. */
  lemma EncounterSkip(cfg: Config, c: Campus, me: int, pool: seq<int>, picks: seq<int>,
                      draws: seq<real>, now: real, n: nat, r: Campus, trace: seq<Outcome>, used: nat)
    requires EncounterInv(cfg, c, me, pool, picks, draws, now, n, r, trace, used, false)
    requires used < |picks| && pool[picks[used]] == me
    ensures EncounterInv(cfg, c, me, pool, picks, draws, now, n, r, trace, used + 1, false)
  {
    ChosenStep(pool, me, picks, used);
  }

  /** The draws have run out before a meeting with a stranger. */
  lemma EncounterStall(cfg: Config, c: Campus, me: int, pool: seq<int>, picks: seq<int>,
                       draws: seq<real>, now: real, n: nat, r: Campus, trace: seq<Outcome>, used: nat)
    requires EncounterInv(cfg, c, me, pool, picks, draws, now, n, r, trace, used, false)
    requires Mets(trace) == |draws|
    ensures EncounterInv(cfg, c, me, pool, picks, draws, now, n, r, trace, used, true)
  {
  }

  /** One encounter with the non-self pick `p`. */
  lemma EncounterAdvance(cfg: Config, c: Campus, me: int, pool: seq<int>, picks: seq<int>,
                         draws: seq<real>, now: real, n: nat, r: Campus, trace: seq<Outcome>, used: nat,
                         s: (Campus, Outcome, seq<real>))
    requires EncounterInv(cfg, c, me, pool, picks, draws, now, n, r, trace, used, false)
    requires used < |picks| && |trace| < n && pool[picks[used]] != me
    requires Linked(r.net, me, pool[picks[used]]) || Mets(trace) < |draws|
    requires s == EncounterOne(cfg, r, me, pool[picks[used]], draws[Mets(trace)..], now)
    ensures EncounterInv(cfg, c, me, pool, picks, draws, now, n, s.0, trace + [s.1], used + 1, false)
  {
    var p := pool[picks[used]];
    PeersWithinSnoc(trace, s.1, Ids(c.roster), me);
    EncounterOneKeepsValid(cfg, r, me, p, draws[Mets(trace)..], now);
    SameExceptTicklesChain(c, r, s.0);
    DrawsSnoc(cfg, c, r, me, trace, draws, s, now);
    MetsSnoc(trace, s.1);
    EncounterOneEdges(cfg, r, me, p, draws[Mets(trace)..], now, s);
    TickledSnoc(c.net, r.net, me, trace, s.1);
    EdgesSnoc(c.net, r.net, s.0.net, me, trace, s.1);
    EncounterOneStamps(cfg, r, me, p, draws[Mets(trace)..], now, s);
    SameExceptTicklesSameIds(c, r);
    StampedSnoc(c.roster, r.roster, s.0.roster, me, trace, s.1, now);
    ChosenStep(pool, me, picks, used);
    PeersSnoc(trace, s.1);
  }

  /** When the loop ends, there were `n` encounters unless the picks or the
      draws ran out first. */
  lemma EncounterExit(cfg: Config, c: Campus, me: int, pool: seq<int>, picks: seq<int>,
                      draws: seq<real>, now: real, n: nat, r: Campus, trace: seq<Outcome>, used: nat, stalled: bool)
    requires EncounterInv(cfg, c, me, pool, picks, draws, now, n, r, trace, used, stalled)
    requires !(|trace| < n && used < |picks| && !stalled)
    ensures |Chosen(pool, me, picks)| >= n && |draws| >= n ==> |trace| == n
  {
    if used == |picks| {
      AllPicks(picks);
    }
  }

  /** One turn of the encounter loop on the pick `p`: a pick of `me` is
      skipped, a stranger with no draw left stalls the loop (the third
      component), any other pick is encountered. */
  function EncounterTurn(cfg: Config, r: Campus, me: int, p: int, draws: seq<real>, now: real,
                         trace: seq<Outcome>): (t: (Campus, seq<Outcome>, bool))
    requires Ready(cfg, r) && me in Ids(r.roster) && p in Ids(r.roster) && Mets(trace) <= |draws|
  {
    if p == me then (r, trace, false)
    else if !Linked(r.net, me, p) && Mets(trace) == |draws| then (r, trace, true)
    else
      var s := EncounterOne(cfg, r, me, p, draws[Mets(trace)..], now);
      (s.0, trace + [s.1], false)
  }

  lemma EncounterTurnInv(cfg: Config, c: Campus, me: int, pool: seq<int>, picks: seq<int>,
                         draws: seq<real>, now: real, n: nat, r: Campus, trace: seq<Outcome>, used: nat)
    requires EncounterInv(cfg, c, me, pool, picks, draws, now, n, r, trace, used, false)
    requires |trace| < n && used < |picks|
    ensures var t := EncounterTurn(cfg, r, me, pool[picks[used]], draws, now, trace);
            EncounterInv(cfg, c, me, pool, picks, draws, now, n, t.0, t.1, if t.2 then used else used + 1, t.2)
  {
    var p := pool[picks[used]];
    if p == me {
      EncounterSkip(cfg, c, me, pool, picks, draws, now, n, r, trace, used);
    } else if !Linked(r.net, me, p) && Mets(trace) == |draws| {
      EncounterStall(cfg, c, me, pool, picks, draws, now, n, r, trace, used);
    } else {
      var s := EncounterOne(cfg, r, me, p, draws[Mets(trace)..], now);
      EncounterAdvance(cfg, c, me, pool, picks, draws, now, n, r, trace, used, s);
    }
  }

  /** `encounter(number, pool)` run by student `me`. `picks` are the
      successive `nextInt(pool.size())` results and `draws` the successive
      draws of `becomeFriends`; the loop stops early only when a stream runs
      out, and `used` is the number of picks consumed. The encounters visit
      the non-self picks in order; each tickles exactly the peers that are
      friends by then, each meeting is decided on its own draw, the only new
      edges join `me` to the strangers befriended, and the only tickle entries
      written are those of `me` and its tickled or befriended peers. */
  method Encounter(cfg: Config, c: Campus, me: int, number: int, pool: seq<int>,
                   picks: seq<int>, draws: seq<real>, now: real)
    returns (r: Campus, trace: seq<Outcome>, used: nat)
    requires Valid(cfg, c) && me in Ids(c.roster)
    requires forall i :: 0 <= i < |pool| ==> pool[i] in Ids(c.roster)
    requires forall i :: 0 <= i < |picks| ==> 0 <= picks[i] < |pool|
    ensures Valid(cfg, r) && SameExceptTickles(c, r)
    ensures used <= |picks| && Peers(trace) == Chosen(pool, me, picks[..used])
    ensures PeersWithin(trace, Ids(c.roster), me)
    ensures |trace| <= EncounterCount(number, |pool|)
    ensures |Chosen(pool, me, picks)| >= EncounterCount(number, |pool|) && |draws| >= EncounterCount(number, |pool|)
            ==> |trace| == EncounterCount(number, |pool|)
    ensures Mets(trace) <= |draws| && DrawsDecide(cfg, c, me, trace, draws)
    ensures TickledIffFriend(c.net, me, trace)
    ensures EdgesAfter(c.net, r.net, me, trace)
    ensures StampedExactly(c.roster, r.roster, me, trace, now)
  {
    var n := EncounterCount(number, |pool|);
    r, trace, used := c, [], 0;
    var stalled := false;
    EncounterInit(cfg, c, me, pool, picks, draws, now, n);
    while |trace| < n && used < |picks| && !stalled
      invariant EncounterInv(cfg, c, me, pool, picks, draws, now, n, r, trace, used, stalled)
      decreases |picks| - used, if stalled then 0 else 1
    {
      EncounterTurnInv(cfg, c, me, pool, picks, draws, now, n, r, trace, used);
      var t := EncounterTurn(cfg, r, me, pool[picks[used]], draws, now, trace);
      r, trace, used, stalled := t.0, t.1, if t.2 then used else used + 1, t.2;
    }
    EncounterExit(cfg, c, me, pool, picks, draws, now, n, r, trace, used, stalled);
  }
}

=== FILE: graph.dfy ===
/**
 The undirected friendship network (a MASON `Network(false)` in the source):
 a set of student ids and a set of edges, each edge stored once as the
 ordered pair (smaller id, larger id).
 */
module Graph {

  type Link = (int, int)

  /** The canonical key of the unordered pair {a, b}. */
  function Pair(a: int, b: int): Link
  {
    if a <= b then (a, b) else (b, a)
  }

  lemma PairFacts(a: int, b: int, x: int, y: int)
    ensures Pair(a, b) == Pair(b, a)
    ensures Pair(a, b) == Pair(x, y) <==> (a == x && b == y) || (a == y && b == x)
  {
  }

  datatype Network = Network(nodes: set<int>, edges: set<Link>)

  /** Every edge joins two distinct nodes of the network. */
  ghost predicate Wf(g: Network)
  {
    forall e :: e in g.edges ==> e.0 < e.1 && e.0 in g.nodes && e.1 in g.nodes
  }

  /** `friendsWith`: an edge joins `a` and `b`. */
  predicate Linked(g: Network, a: int, b: int)
  {
    Pair(a, b) in g.edges
  }

  lemma LinkedFacts(g: Network, a: int, b: int)
    requires Wf(g)
    ensures Linked(g, a, b) == Linked(g, b, a)
    ensures Linked(g, a, b) ==> a != b && a in g.nodes && b in g.nodes
  {
  }

  /** `addNode`. */
  function AddNodes(g: Network, ids: set<int>): (r: Network)
    ensures r.nodes == g.nodes + ids && r.edges == g.edges
    ensures Wf(g) ==> Wf(r)
  {
    g.(nodes := g.nodes + ids)
  }

  /** `addEdge`: `a` and `b` become linked and no other pair changes. */
  function AddEdge(g: Network, a: int, b: int): (r: Network)
    requires a != b && a in g.nodes && b in g.nodes
    ensures r.nodes == g.nodes
    ensures Linked(r, a, b)
    ensures forall x, y :: Linked(r, x, y) <==> Linked(g, x, y) || Pair(x, y) == Pair(a, b)
    ensures Wf(g) ==> Wf(r)
  {
    g.(edges := g.edges + {Pair(a, b)})
  }

  /** `removeEdge`: the pair {a, b} is no longer linked and no other pair
      changes; removing an absent edge does nothing. */
  function RemoveEdge(g: Network, a: int, b: int): (r: Network)
    ensures r.nodes == g.nodes
    ensures !Linked(r, a, b)
    ensures forall x, y :: Linked(r, x, y) <==> Linked(g, x, y) && Pair(x, y) != Pair(a, b)
    ensures !Linked(g, a, b) ==> r == g
    ensures Wf(g) ==> Wf(r)
  {
    g.(edges := g.edges - {Pair(a, b)})
  }

  /** `removeNode` applied to every id in `gone`: the nodes disappear together
      with every edge that touches one of them. */
  function RemoveNodes(g: Network, gone: set<int>): (r: Network)
    ensures r.nodes == g.nodes - gone
    ensures forall x, y :: Linked(r, x, y) <==> Linked(g, x, y) && x !in gone && y !in gone
    ensures Wf(g) ==> Wf(r)
  {
    Network(g.nodes - gone, set e | e in g.edges && e.0 !in gone && e.1 !in gone)
  }

  /** The ids linked to `a`. */
  function Neighbors(g: Network, a: int): (r: set<int>)
    ensures forall b :: b in r <==> Linked(g, a, b)
  {
    (set e | e in g.edges && e.0 == a && a <= e.1 :: e.1) +
    (set e | e in g.edges && e.1 == a && e.0 <= a :: e.0)
  }

  /** The number of friends of `a` (`getEdgesIn(this).size()`). */
  function Degree(g: Network, a: int): nat
  {
    |Neighbors(g, a)|
  }
}

=== FILE: numerics.dfy ===
/**
 Numeric helpers shared by the model: Java's rounding casts and integer
 division (which truncate toward zero, unlike Dafny's Euclidean operators),
 absolute value and the sum of a sequence of reals.
 */
module Numerics {

  /** `(int) Math.ceil(x)`: the least integer that is not below `x`. */
  function Ceil(x: real): (r: int)
    ensures r as real - 1.0 < x <= r as real
  {
    -((-x).Floor)
  }

  /** `(int) x`: Java's cast truncates toward zero. */
  function Trunc(x: real): (r: int)
    ensures 0.0 <= x ==> 0 <= r && r as real <= x < r as real + 1.0
    ensures x < 0.0 ==> r <= 0 && r as real - 1.0 < x <= r as real
  {
    if x >= 0.0 then x.Floor else Ceil(x)
  }

  /** Java's `a / b` on ints: the quotient truncated toward zero. */
  function JavaQuot(a: int, b: int): int
    requires b > 0
  {
    if a >= 0 then a / b else -((-a) / b)
  }

  /** Java's `a % b` on ints: the remainder takes the sign of `a`. */
  function JavaRem(a: int, b: int): int
    requires b > 0
  {
    if a >= 0 then a % b else -((-a) % b)
  }

  /** Quotient and remainder recombine to the dividend, the remainder is
      smaller than the divisor in magnitude and never has the opposite sign
      of the dividend; on non-negative dividends they agree with Dafny's
      Euclidean operators. */
  lemma JavaDivision(a: int, b: int)
    requires b > 0
    ensures JavaQuot(a, b) * b + JavaRem(a, b) == a
    ensures -b < JavaRem(a, b) < b
    ensures a >= 0 ==> 0 <= JavaRem(a, b) && JavaRem(a, b) == a % b && JavaQuot(a, b) == a / b
    ensures a < 0 ==> JavaRem(a, b) <= 0
  {
    if a < 0 {
      assert (-a) / b * b + (-a) % b == -a;
    }
  }

  function Abs(x: real): (r: real)
    ensures r >= 0.0 && (r == x || r == -x)
  {
    if x < 0.0 then -x else x
  }

  /** The sum of the entries, first entry plus the sum of the rest; over exact
      reals this equals the running total of the source's accumulation loops. */
  function Sum(s: seq<real>): real
  {
    if |s| == 0 then 0.0 else s[0] + Sum(s[1..])
  }

  lemma {:induction false} SumConcat(a: seq<real>, b: seq<real>)
    ensures Sum(a + b) == Sum(a) + Sum(b)
  {
    if |a| == 0 {
      assert a + b == b;
    } else {
      assert (a + b)[1..] == a[1..] + b;
      SumConcat(a[1..], b);
    }
  }

  /** Splitting a sum around position `i`. */
  lemma SumAround(s: seq<real>, i: nat)
    requires i < |s|
    ensures Sum(s) == Sum(s[..i]) + s[i] + Sum(s[i+1..])
  {
    assert s == s[..i] + ([s[i]] + s[i+1..]);
    SumConcat(s[..i], [s[i]] + s[i+1..]);
    assert ([s[i]] + s[i+1..])[1..] == s[i+1..];
  }

  /** A sum of values drawn from [lo, hi] lies between |s|·lo and |s|·hi. */
  lemma {:induction false} SumBounds(s: seq<real>, lo: real, hi: real)
    requires forall i :: 0 <= i < |s| ==> lo <= s[i] <= hi
    ensures |s| as real * lo <= Sum(s) <= |s| as real * hi
  {
    if |s| > 0 {
      SumBounds(s[1..], lo, hi);
    }
  }

  /** A non-empty sum of positive values is positive. */
  lemma {:induction false} SumPositive(s: seq<real>)
    requires |s| > 0
    requires forall i :: 0 <= i < |s| ==> s[i] > 0.0
    ensures Sum(s) > 0.0
  {
    if |s| > 1 {
      SumPositive(s[1..]);
    }
  }
}

=== FILE: person.dfy ===
/**
 A student (Person.java) as an immutable record, the run parameters, the
 constructor's random sampling, the similarity score that drives friendship,
 the friendship acceptance rule and the alienation measure.
 */
module People {
  import opened Numerics
  import opened Attributes

  datatype Race = White | Minority
  datatype Gender = Male | Female

  /** The source fixes every student's extroversion at 0.5; the model allows
      any value in (0, 1]. */
  type Extroversion = e: real | 0.0 < e <= 1.0 witness 0.5

  const GenWeight: real := 0.0
  const ConstWeight: real := 1.0
  const IndepWeight: real := 1.5
  const DepWeight: real := 2.5
  const ProbabilityFemale: real := 1.0
  const DefaultExtroversion: Extroversion := 0.5
  /** The number of friends that counts as a full share in `getAlienation`
      (`requiredNumFriends`, the divisor of the friend count). */
  const RequiredNumFriends: real := 3.0

  /** The run parameters of Person.java and Sim.java that the core reads. */
  datatype Config = Config(
    raceWeight: real,
    probabilityWhite: real,
    friendshipCoefficient: real,
    friendshipIntercept: real,
    numToMeetGroup: int,
    numToMeetPop: int,
    decayThreshold: int,
    constPool: nat,
    indepPool: nat,
    depPool: nat,
    numSimulationYears: int,
    initNumPeople: int,
    initNumGroups: int,
    numFreshmen: int,
    numNewGroups: int)

  /** The denominator of the similarity score: the score of a perfect match. */
  function MaxRating(cfg: Config): real
  {
    cfg.constPool as real * ConstWeight + cfg.indepPool as real * IndepWeight
      + cfg.depPool as real * DepWeight + cfg.raceWeight + GenWeight
  }

  /** Weights for which the similarity score is a proper ratio. */
  predicate SaneWeights(cfg: Config)
  {
    cfg.raceWeight >= 0.0 && MaxRating(cfg) > 0.0
  }

  datatype Person = Person(
    id: int,
    year: int,
    race: Race,
    gender: Gender,
    extroversion: Extroversion,
    groups: seq<int>,          // ids of the groups this student belongs to
    constAttrs: seq<bool>,
    indepAttrs: seq<real>,
    depAttrs: seq<real>,       // raw values; read through Normalize
    lastTickle: map<int, real>) // peer id -> time of the last meeting or tickle

  /** Attribute vectors have the pool lengths, and the dependent vector can be
      normalised. */
  predicate Shaped(cfg: Config, p: Person)
  {
    && |p.constAttrs| == cfg.constPool
    && |p.indepAttrs| == cfg.indepPool
    && |p.depAttrs| == cfg.depPool
    && (|p.depAttrs| == 0 || Sum(p.depAttrs) != 0.0)
  }

  /** Attribute values lie where the constructor draws them: in (0, 1]. */
  ghost predicate Sampled(p: Person)
  {
    && (forall i :: 0 <= i < |p.indepAttrs| ==> 0.0 < p.indepAttrs[i] <= 1.0)
    && (forall i :: 0 <= i < |p.depAttrs| ==> 0.0 < p.depAttrs[i] <= 1.0)
  }

  /** The random outcomes the `Person()` constructor consumes: one coin per
      constant attribute, one degree in (0, 1] per independent and dependent
      attribute, and one uniform draw each for race and gender. */
  datatype Draws = Draws(coins: seq<bool>, indep: seq<real>, dep: seq<real>,
                         raceDraw: real, genderDraw: real)

  ghost predicate DrawsFit(cfg: Config, d: Draws)
  {
    && |d.coins| == cfg.constPool
    && |d.indep| == cfg.indepPool
    && |d.dep| == cfg.depPool
    && (forall i :: 0 <= i < |d.indep| ==> 0.0 < d.indep[i] <= 1.0)
    && (forall i :: 0 <= i < |d.dep| ==> 0.0 < d.dep[i] <= 1.0)
    && 0.0 <= d.raceDraw < 1.0
    && 0.0 <= d.genderDraw < 1.0
  }

  /** `new Person()` followed by `setYear(year)`: a student with no groups and
      no friends, white iff the race draw is at most `probabilityWhite`, and
      always female because `ProbabilityFemale` is 1. */
  function NewPerson(cfg: Config, id: int, year: int, d: Draws): (p: Person)
    requires DrawsFit(cfg, d)
    ensures p.id == id && p.year == year
    ensures p.groups == [] && p.lastTickle == map[]
    ensures Shaped(cfg, p) && Sampled(p)
    ensures p.race == White <==> d.raceDraw <= cfg.probabilityWhite
    ensures p.gender == Female
  {
    PositiveVectorNormalisable(d.dep);
    Person(id, year,
           if d.raceDraw <= cfg.probabilityWhite then White else Minority,
           if d.genderDraw <= ProbabilityFemale then Female else Male,
           DefaultExtroversion, [], d.coins, d.indep, d.dep, map[])
  }

  lemma PositiveVectorNormalisable(s: seq<real>)
    requires forall i :: 0 <= i < |s| ==> 0.0 < s[i]
    ensures |s| == 0 || Sum(s) > 0.0
  {
    if |s| > 0 {
      SumPositive(s);
    }
  }

  /** `similarityTo`: the weighted number of matching "equivalent attributes"
      divided by the maximum possible. Independent and dependent attributes
      contribute through the distance of their sums; dependent ones are
      normalised first. */
  function Similarity(cfg: Config, a: Person, b: Person): real
    requires Shaped(cfg, a) && Shaped(cfg, b) && MaxRating(cfg) != 0.0
  {
    var constantCount := CountMatches(cfg.constPool, a.constAttrs, b.constAttrs);
    var indepCount := SumCloseness(cfg.indepPool, a.indepAttrs, b.indepAttrs);
    var depCount := SumCloseness(cfg.depPool, Normalize(a.depAttrs), Normalize(b.depAttrs));
    var raceCount := if a.race == b.race then 1.0 else 0.0;
    var genCount := if a.gender == b.gender then 1.0 else 0.0;
    (constantCount as real * ConstWeight + indepCount * IndepWeight + depCount * DepWeight
      + raceCount * cfg.raceWeight + genCount * GenWeight) / MaxRating(cfg)
  }

  lemma SimilaritySymmetric(cfg: Config, a: Person, b: Person)
    requires Shaped(cfg, a) && Shaped(cfg, b) && MaxRating(cfg) != 0.0
    ensures Similarity(cfg, a, b) == Similarity(cfg, b, a)
  {
    CountMatchesSymmetric(cfg.constPool, a.constAttrs, b.constAttrs);
    SumClosenessFacts(cfg.indepPool, a.indepAttrs, b.indepAttrs);
    SumClosenessFacts(cfg.depPool, Normalize(a.depAttrs), Normalize(b.depAttrs));
  }

  /** The dependent term of two shaped students is always the full pool. */
  lemma DependentTermIsPool(cfg: Config, a: Person, b: Person)
    requires Shaped(cfg, a) && Shaped(cfg, b)
    ensures SumCloseness(cfg.depPool, Normalize(a.depAttrs), Normalize(b.depAttrs)) == cfg.depPool as real
  {
    if cfg.depPool > 0 {
      NormalizedClosenessIsPool(a.depAttrs, b.depAttrs);
    }
  }

  /** Consequence of the sum-based comparison: replacing one student's
      dependent attributes by any other normalisable vector leaves the
      similarity unchanged. */
  lemma SimilarityIgnoresDependentValues(cfg: Config, a: Person, b: Person, dep: seq<real>)
    requires Shaped(cfg, a) && Shaped(cfg, b) && MaxRating(cfg) != 0.0
    requires Shaped(cfg, b.(depAttrs := dep))
    ensures Similarity(cfg, a, b) == Similarity(cfg, a, b.(depAttrs := dep))
  {
    DependentTermIsPool(cfg, a, b);
    DependentTermIsPool(cfg, a, b.(depAttrs := dep));
  }

  /** With non-negative weights and sampled attributes the score is in [0, 1]. */
  lemma SimilarityInUnitRange(cfg: Config, a: Person, b: Person)
    requires Shaped(cfg, a) && Shaped(cfg, b) && SaneWeights(cfg)
    requires Sampled(a) && Sampled(b)
    ensures 0.0 <= Similarity(cfg, a, b) <= 1.0
  {
    var cc := CountMatches(cfg.constPool, a.constAttrs, b.constAttrs);
    SumClosenessFacts(cfg.indepPool, a.indepAttrs, b.indepAttrs);
    SumClosenessNonNegative(cfg.indepPool, a.indepAttrs, b.indepAttrs);
    DependentTermIsPool(cfg, a, b);
    var ic := SumCloseness(cfg.indepPool, a.indepAttrs, b.indepAttrs);
    var raceCount := if a.race == b.race then 1.0 else 0.0;
    var total := cc as real * ConstWeight + ic * IndepWeight + cfg.depPool as real * DepWeight
                 + raceCount * cfg.raceWeight;
    assert 0.0 <= total <= MaxRating(cfg);
    RatioInUnitRange(total, MaxRating(cfg));
  }

  lemma RatioInUnitRange(x: real, m: real)
    requires m > 0.0 && 0.0 <= x <= m
    ensures 0.0 <= x / m <= 1.0
  {
    assert x / m * m == x;
  }

  /** A student is perfectly similar to an identical student. */
  lemma SelfSimilarityIsOne(cfg: Config, a: Person)
    requires Shaped(cfg, a) && MaxRating(cfg) != 0.0
    ensures Similarity(cfg, a, a) == 1.0
  {
    var cc := CountMatches(cfg.constPool, a.constAttrs, a.constAttrs);
    assert cc == cfg.constPool;
    SumClosenessFacts(cfg.indepPool, a.indepAttrs, a.indepAttrs);
    DependentTermIsPool(cfg, a, a);
    var total := cc as real * ConstWeight + cfg.indepPool as real * IndepWeight
                 + cfg.depPool as real * DepWeight + 1.0 * cfg.raceWeight + 1.0 * GenWeight;
    assert total == MaxRating(cfg);
    assert Similarity(cfg, a, a) == total / MaxRating(cfg);
  }

  /** `becomeFriends`: accept iff the draw is at most the linear acceptance
      probability (which is not clamped). */
  function BecomeFriends(cfg: Config, similarity: real, draw: real): bool
  {
    draw <= cfg.friendshipCoefficient * similarity + cfg.friendshipIntercept
  }

  /** With coefficient 0 the outcome ignores similarity: intercept 1 accepts
      every draw from [0, 1), while intercept 0 still accepts a draw of
      exactly 0 (the comparison is `<=`) and rejects every other. */
  lemma FlatAcceptance(cfg: Config, s1: real, s2: real, draw: real)
    requires cfg.friendshipCoefficient == 0.0
    requires 0.0 <= draw < 1.0
    ensures BecomeFriends(cfg, s1, draw) == BecomeFriends(cfg, s2, draw)
    ensures cfg.friendshipIntercept == 1.0 ==> BecomeFriends(cfg, s1, draw)
    ensures cfg.friendshipIntercept == 0.0 ==> (BecomeFriends(cfg, s1, draw) <==> draw == 0.0)
  {
  }

  /** `getAlienation`: extroversion divided by the friend fraction
      numFriends/3, clamped to 1. With no friends Java divides by 0.0 and
      gets +Infinity, which the clamp turns into 1. */
  function Alienation(friends: nat, e: Extroversion): (r: real)
    ensures 0.0 < r <= 1.0
    ensures friends == 0 ==> r == 1.0
  {
    if friends == 0 then 1.0
    else
      var factor := e / (friends as real / RequiredNumFriends);
      if factor > 1.0 then 1.0 else factor
  }

  /** More friends never make a student more alienated. */
  lemma AlienationNonIncreasing(n1: nat, n2: nat, e: Extroversion)
    requires n1 <= n2
    ensures Alienation(n2, e) <= Alienation(n1, e)
  {
    if n1 > 0 {
      var f1 := n1 as real / RequiredNumFriends;
      var f2 := n2 as real / RequiredNumFriends;
      assert 0.0 < f1 <= f2;
      QuotientShrinks(e, f1, f2);
    }
  }

  lemma QuotientShrinks(e: real, f1: real, f2: real)
    requires e > 0.0 && 0.0 < f1 <= f2
    ensures e / f2 <= e / f1
  {
    assert e / f2 * f2 == e == e / f1 * f1;
    assert e / f2 * f1 <= e / f2 * f2;
  }
}

=== FILE: step.dfy ===
/**
 `step()` of Person.java: one month of a student's life. A student still in
 the network encounters students of its own groups, then students of the
 whole campus, then lets its stale friendships decay, and asks to be woken
 next month, after the summer, or never again.
 */
module StudentStep {
  import opened Graph
  import opened People
  import opened CampusState
  import opened Friendship
  import opened Decay
  import opened Calendar

  /** `getPeopleInGroups()` of student `me`. */
  function GroupPool(c: Campus, me: int): (r: seq<int>)
    requires me in Ids(c.roster) && UniqueGroupIds(c.groups)
    requires forall k, g :: 0 <= k < |c.roster| && g in c.roster[k].groups ==> g in GroupIds(c.groups)
    ensures NoDup(r)
    ensures forall x :: x in r <==> exists g :: g in c.groups && g.id in Lookup(c.roster, me).groups && x in g.members
  {
    var p := Lookup(c.roster, me);
    var gs := MyGroups(c.groups, p);
    var r := PeopleInGroups(gs);
    assert forall x :: x in r <==> exists g :: g in c.groups && g.id in p.groups && x in g.members by {
      forall x
        ensures x in r <==> exists g :: g in c.groups && g.id in p.groups && x in g.members
      {
        if x in r {
          var i :| 0 <= i < |gs| && x in gs[i].members;
          assert gs[i] in c.groups && gs[i].id in p.groups;
        }
        if g :| g in c.groups && g.id in p.groups && x in g.members {
          var j :| 0 <= j < |p.groups| && p.groups[j] == g.id;
          assert gs[j].id == g.id;
          assert gs[j] == g by {
            UniqueGroupIdsSame(c.groups, gs[j], g);
          }
        }
      }
    }
    r
  }

  /** With unique group ids, a group is determined by its id. */
  lemma UniqueGroupIdsSame(groups: seq<Group>, g: Group, h: Group)
    requires UniqueGroupIds(groups)
    requires g in groups && h in groups && g.id == h.id
    ensures g == h
  {
    var i :| 0 <= i < |groups| && groups[i] == g;
    var j :| 0 <= j < |groups| && groups[j] == h;
  }

  /** Everyone in a student's group pool is on the roster. */
  lemma GroupPoolInRoster(cfg: Config, c: Campus, me: int)
    requires Valid(cfg, c) && me in Ids(c.roster)
    ensures forall i :: 0 <= i < |GroupPool(c, me)| ==> GroupPool(c, me)[i] in Ids(c.roster)
  {
    var r := GroupPool(c, me);
    forall i | 0 <= i < |r|
      ensures r[i] in Ids(c.roster)
    {
      var g :| g in c.groups && g.id in Lookup(c.roster, me).groups && r[i] in g.members;
      var j :| 0 <= j < |c.groups| && c.groups[j] == g;
    }
  }

  /** Apart from `me`'s own entries and the entries for `me`, every tickle
      map of `r` is as in `c`. */
  ghost predicate OthersKept(c: seq<Person>, r: seq<Person>, me: int)
  {
    && |r| == |c|
    && forall k, q :: 0 <= k < |c| && c[k].id != me && q != me ==>
         (q in r[k].lastTickle <==> q in c[k].lastTickle) &&
         (q in c[k].lastTickle ==> r[k].lastTickle[q] == c[k].lastTickle[q])
  }

  /** No edge between two students other than `me` changes. */
  ghost predicate EdgesAwayKept(c: Network, r: Network, me: int)
  {
    forall x, y :: x != me && y != me ==> (Linked(r, x, y) <==> Linked(c, x, y))
  }

  lemma EncounterKeepsOthers(c: Campus, r: Campus, me: int, t: seq<Outcome>, now: real)
    requires StampedExactly(c.roster, r.roster, me, t, now) && EdgesAfter(c.net, r.net, me, t)
    ensures OthersKept(c.roster, r.roster, me) && EdgesAwayKept(c.net, r.net, me)
  {
    forall k, q | 0 <= k < |c.roster| && c.roster[k].id != me && q != me
      ensures (q in r.roster[k].lastTickle <==> q in c.roster[k].lastTickle)
      ensures (q in c.roster[k].lastTickle ==> r.roster[k].lastTickle[q] == c.roster[k].lastTickle[q])
    {
      assert StampedMap(c.roster[k].lastTickle, r.roster[k].lastTickle, c.roster[k].id, me, t, now);
      assert !Stamped(me, t, c.roster[k].id, q);
    }
  }

  lemma DecayKeepsOthers(c: Campus, r: Campus, me: int, gone: set<int>)
    requires Decayed(c, r, me, gone)
    ensures OthersKept(c.roster, r.roster, me) && EdgesAwayKept(c.net, r.net, me)
  {
  }

  lemma KeptChain(a: Campus, b: Campus, d: Campus, me: int)
    requires OthersKept(a.roster, b.roster, me) && EdgesAwayKept(a.net, b.net, me)
    requires OthersKept(b.roster, d.roster, me) && EdgesAwayKept(b.net, d.net, me)
    requires SameIds(a.roster, b.roster)
    ensures OthersKept(a.roster, d.roster, me) && EdgesAwayKept(a.net, d.net, me)
  {
  }

  /** After `decay()` every friendship of `me` rests on a fresh entry. */
  lemma NoStaleFriend(cfg: Config, c: Campus, me: int, now: real, threshold: int)
    requires Valid(cfg, c) && me in Ids(c.roster)
    ensures var r := DecayAll(c, me, now, threshold);
            me in Ids(r.roster) &&
            forall f :: Linked(r.net, me, f) ==>
              f in TickleMap(r, me) && now - TickleMap(r, me)[f] < threshold as real
  {
    var r := DecayAll(c, me, now, threshold);
    DecayMeaning(cfg, c, me, now, threshold);
    forall f | Linked(r.net, me, f)
      ensures f in TickleMap(r, me)
    {
      var k := IndexOf(c.roster, me);
      assert Linked(c.net, c.roster[k].id, f);
    }
  }

  /** The schedule request at the end of `step()`: next month during the
      academic year; otherwise after the summer, unless this is the last
      year of the run. */
  function NextWake(now: real, lastYear: bool): (n: Next)
    ensures n != Sealed
    ensures n == Dormant <==> !NextMonthInAcademicYear(now) && lastYear
    ensures NextMonthInAcademicYear(now) ==> n == WakeIn(1)
    ensures !NextMonthInAcademicYear(now) && !lastYear ==> n == WakeIn(NumMonthsInSummer + 1)
  {
    if NextMonthInAcademicYear(now) then WakeIn(1)
    else if lastYear then Dormant
    else WakeIn(NumMonthsInSummer + 1)
  }

  /** The peers of a prefix of the picks come first among the peers of all
      the picks. */
  lemma ChosenPrefix(pool: seq<int>, me: int, picks: seq<int>, used: nat)
    requires forall i :: 0 <= i < |picks| ==> 0 <= picks[i] < |pool|
    requires used <= |picks|
    ensures Chosen(pool, me, picks[..used]) <= Chosen(pool, me, picks)
  {
    assert picks == picks[..used] + picks[used..];
    ChosenConcat(pool, me, picks[..used], picks[used..]);
  }

  lemma Unchanged(c: Campus, me: int, now: real)
    ensures SameExceptTickles(c, c) && SameIds(c.roster, c.roster)
    ensures StampedExactly(c.roster, c.roster, me, [], now) && EdgesAfter(c.net, c.net, me, [])
  {
    forall k | 0 <= k < |c.roster|
      ensures SameButTickles(c.roster[k], c.roster[k])
    {
    }
  }

  /** What one encounter phase of `step()` did with pool `pool`, starting
      from campus `c` and ending in `r` with trace `t`: nothing when the pool
      holds at most one student; otherwise what `encounter` promises. Only
      tickle maps and edges change. The peers are the picks in order with self-picks skipped, and there are as
      many as the clamped count when picks and draws suffice. Each peer was
      tickled iff already a friend. Each meeting was decided by its own
      draw. The only new edges join `me` to befriended strangers, and
      exactly the touched tickle entries were stamped. */
  ghost predicate Encountered(cfg: Config, c: Campus, me: int, number: int, pool: seq<int>,
                              picks: seq<int>, draws: seq<real>, now: real, r: Campus, t: seq<Outcome>)
    requires Ready(cfg, c) && me in Ids(c.roster)
    requires forall i :: 0 <= i < |picks| ==> 0 <= picks[i] < |pool|
  {
    if |pool| <= 1 then r == c && t == []
    else
      && SameExceptTickles(c, r)
      && Peers(t) <= Chosen(pool, me, picks)
      && |t| <= EncounterCount(number, |pool|)
      && (var n := EncounterCount(number, |pool|);
          |Chosen(pool, me, picks)| >= n && |draws| >= n ==> |t| == n)
      && PeersWithin(t, Ids(c.roster), me)
      && Mets(t) <= |draws| && DrawsDecide(cfg, c, me, t, draws)
      && TickledIffFriend(c.net, me, t)
      && EdgesAfter(c.net, r.net, me, t)
      && StampedExactly(c.roster, r.roster, me, t, now)
  }

  /** One of the two encounters of `step()`: it runs only if the pool holds
      more than one student. */
  method EncounterPhase(cfg: Config, c: Campus, me: int, number: int, pool: seq<int>,
                        picks: seq<int>, draws: seq<real>, now: real)
    returns (r: Campus, trace: seq<Outcome>)
    requires Valid(cfg, c) && me in Ids(c.roster)
    requires forall i :: 0 <= i < |pool| ==> pool[i] in Ids(c.roster)
    requires forall i :: 0 <= i < |picks| ==> 0 <= picks[i] < |pool|
    ensures Valid(cfg, r) && SameExceptTickles(c, r) && SameIds(c.roster, r.roster)
    ensures Encountered(cfg, c, me, number, pool, picks, draws, now, r, trace)
    ensures OthersKept(c.roster, r.roster, me) && EdgesAwayKept(c.net, r.net, me)
    ensures forall f :: Linked(r.net, me, f) && !Linked(c.net, me, f) ==> Met(f, true) in trace
    ensures Peers(trace) <= Chosen(pool, me, picks) && Mets(trace) <= |draws|
  {
    r, trace := c, [];
    Unchanged(c, me, now);
    if |pool| > 1 {
      var used;
      r, trace, used := Encounter(cfg, c, me, number, pool, picks, draws, now);
      ChosenPrefix(pool, me, picks, used);
    }
    EncounterKeepsOthers(c, r, me, trace, now);
    SameExceptTicklesSameIds(c, r);
  }

  /** The encounters of `step()`: with the group pool from `c` to `c1`, then
      with the whole campus as it was when the step began, from `c1` to
      `c2`, on the draws the first phase left. */
  method Encounters(cfg: Config, c: Campus, me: int, groupPicks: seq<int>, popPicks: seq<int>,
                    draws: seq<real>, now: real)
    returns (c1: Campus, c2: Campus, groupTrace: seq<Outcome>, popTrace: seq<Outcome>)
    requires Valid(cfg, c) && me in Ids(c.roster)
    requires forall i :: 0 <= i < |groupPicks| ==> 0 <= groupPicks[i] < |GroupPool(c, me)|
    requires forall i :: 0 <= i < |popPicks| ==> 0 <= popPicks[i] < |c.roster|
    ensures Valid(cfg, c1) && me in Ids(c1.roster) && Mets(groupTrace) <= |draws|
    ensures Encountered(cfg, c, me, cfg.numToMeetGroup, GroupPool(c, me), groupPicks, draws, now, c1, groupTrace)
    ensures Encountered(cfg, c1, me, cfg.numToMeetPop, IdSeq(c.roster), popPicks, draws[Mets(groupTrace)..], now,
                        c2, popTrace)
    ensures Valid(cfg, c2) && SameExceptTickles(c, c2) && SameIds(c.roster, c2.roster)
    ensures OthersKept(c.roster, c2.roster, me) && EdgesAwayKept(c.net, c2.net, me)
    ensures forall f :: Linked(c2.net, me, f) && !Linked(c.net, me, f) ==> Met(f, true) in groupTrace + popTrace
    ensures Peers(groupTrace) <= Chosen(GroupPool(c, me), me, groupPicks)
    ensures Peers(popTrace) <= Chosen(IdSeq(c.roster), me, popPicks)
  {
    GroupPoolInRoster(cfg, c, me);
    c1, groupTrace := EncounterPhase(cfg, c, me, cfg.numToMeetGroup, GroupPool(c, me), groupPicks, draws, now);
    SameExceptTicklesIds(c, c1);
    c2, popTrace := EncounterPhase(cfg, c1, me, cfg.numToMeetPop, IdSeq(c.roster), popPicks,
                                   draws[Mets(groupTrace)..], now);
    KeptChain(c, c1, c2, me);
    SameExceptTicklesChain(c, c1, c2);
    SameExceptTicklesSameIds(c, c2);
  }

  /** A student's monthly step. `groupPicks` and `popPicks` are the index
      draws of the two encounters, `draws` the friendship draws they share,
      `lastYear` the answer of `isLastYearOfSim()`. The campus after the
      group encounter is `c1` and after both encounters `c2`; the result is
      `c2` after `decay()`. A student no longer in the network does nothing
      and is not rescheduled. */
  method Step(cfg: Config, c: Campus, me: int, groupPicks: seq<int>, popPicks: seq<int>,
              draws: seq<real>, now: real, lastYear: bool)
    returns (r: Campus, c1: Campus, c2: Campus, groupTrace: seq<Outcome>, popTrace: seq<Outcome>, next: Next)
    requires Valid(cfg, c)
    requires me in Ids(c.roster) ==> forall i :: 0 <= i < |groupPicks| ==> 0 <= groupPicks[i] < |GroupPool(c, me)|
    requires forall i :: 0 <= i < |popPicks| ==> 0 <= popPicks[i] < |c.roster|
    ensures Valid(cfg, r) && SameExceptTickles(c, r)
    ensures me !in Ids(c.roster) ==>
              r == c && c1 == c && c2 == c && groupTrace == [] && popTrace == [] && next == Dormant
    ensures me in Ids(c.roster) ==> next == NextWake(now, lastYear)
    ensures me in Ids(c.roster) ==>
              && Valid(cfg, c1) && me in Ids(c1.roster) && Mets(groupTrace) <= |draws|
              && Encountered(cfg, c, me, cfg.numToMeetGroup, GroupPool(c, me), groupPicks, draws, now, c1, groupTrace)
              && Encountered(cfg, c1, me, cfg.numToMeetPop, IdSeq(c.roster), popPicks, draws[Mets(groupTrace)..], now,
                             c2, popTrace)
              && me in Ids(c2.roster)
              && r == DecayAll(c2, me, now, cfg.decayThreshold)
    ensures OthersKept(c.roster, r.roster, me) && EdgesAwayKept(c.net, r.net, me)
    ensures forall f :: Linked(r.net, me, f) && !Linked(c.net, me, f) ==> Met(f, true) in groupTrace + popTrace
    ensures me in Ids(c.roster) ==>
              me in Ids(r.roster) &&
              forall f :: Linked(r.net, me, f) ==>
                f in TickleMap(r, me) && now - TickleMap(r, me)[f] < cfg.decayThreshold as real
  {
    if me !in c.net.nodes {
      r, c1, c2, groupTrace, popTrace, next := c, c, c, [], [], Dormant;
      Unchanged(c, me, now);
      return;
    }
    c1, c2, groupTrace, popTrace := Encounters(cfg, c, me, groupPicks, popPicks, draws, now);
    SameExceptTicklesIds(c, c2);
    var m := TickleMap(c2, me);
    var gone := StaleKeys(m, m.Keys, now, cfg.decayThreshold);
    r := DecayAll(c2, me, now, cfg.decayThreshold);
    DecayedKeepsValid(cfg, c2, r, me, gone);
    DecayKeepsOthers(c2, r, me, gone);
    KeptChain(c, c2, r, me);
    SameExceptTicklesChain(c, c2, r);
    NoStaleFriend(cfg, c2, me, now, cfg.decayThreshold);
    next := NextWake(now, lastYear);
  }
}
